=== FILE: README.md ===
# Section navigation and metric cards, in Dafny

This project models the two pieces of pure logic in a single-page consulting
site written in React and TypeScript.

- **Section navigation** (`src/App.tsx`, module `Navigation`). The page is a
  fixed list of six sections, from `home` to `contact`. The keyboard handler
  and the mouse-wheel handler step through the list one section at a time.
  - Both handlers do nothing below a window width of 1024 and while a scroll
    is in flight.
  - Both wait 300 ms after the last scroll.
  - The wheel adds its deltas into an accumulator. The accumulator is
    forgotten after 200 ms without a reset and whenever the wheel changes
    direction. Small touchpad deltas are damped by 0.3.
  - The wheel moves one section once the accumulator reaches 150.

  `ScrollState` holds the component's state and refs. `KeyStep`, `WheelStep`
  and `Navigate` are its transitions. `Step` and `Run` make the whole state
  machine, including the 500 ms timer and the intersection observer as
  events.
- **Metric cards** (`src/components/Analytics.tsx`, modules `MetricCard`,
  `TitleFormat`, `NumberFormat`, with the string operations in `Text`).
  - The unit of each metric key.
  - The `isPositive`, `isDataMissing` and `hasAnomalies` flags.
  - The month labels of the history chart.
  - `formatTitle`, which turns a camelCase key into a title ("gdpGrowth"
    becomes "GDP growth").
  - `formatNumber` and `formatTooltipValue`, with their "No data" and "N/A"
    cases and the thousands-separator regular expression
    `/\B(?=(\d{3})+(?!\d))/g`. `NumberFormat.GroupedFrom` models the regular
    expression position by position. `NumberFormat.RefGroup` is an
    independent definition of grouping digits by threes from the right, and
    the two are proved to agree on `toFixed(2)` text.

Times are integer milliseconds. Wheel deltas are exact reals. Strings are
`seq<char>`, and case mapping covers ASCII letters only.

## Model

| member | source | states |
|---|---|---|
| Navigation.FindIndex | src/App.tsx:63 | `findIndex` gives the first position holding the id, and -1 exactly when the id is absent |
| Navigation.SectionsDistinct | src/App.tsx:26-33 | no section id appears twice in the page |
| Navigation.SectionIndexOf | src/App.tsx:26-33 | looking up the id at position i gives back i |
| Navigation.Init | src/App.tsx:36-47 | the first render shows the first section, and that state is valid |
| Navigation.Navigate | src/App.tsx:225-236 | a section id becomes current; an unknown id (index -1, so no ref) changes nothing |
| Navigation.StepUpIndex | src/App.tsx:67-72 | stepping up goes from index i to i-1, and stays at index 0 |
| Navigation.StepDownIndex | src/App.tsx:73-78 | stepping down goes from index i to i+1, and stays at the last index |
| Navigation.KeyTarget | src/App.tsx:66-87 | the six handled keys (ArrowUp, PageUp, ArrowDown, PageDown, Home, End, in four cases) give a target and every other key gives none; a target is a page section or the current one |
| Navigation.KeyStep | src/App.tsx:56-98 | a key press keeps the state valid and never touches the accumulator refs; it either changes nothing or starts a scroll at `now` to a different section |
| Navigation.KeyTargetInRange | src/App.tsx:63-84 | from a page section, every handled key selects an index in [0, 5] |
| Navigation.KeyStepChangesIff | src/App.tsx:57-61 | a key press changes the state if and only if the width, in-flight and cooldown gates are open, the key is handled and its target differs from the current section |
| Navigation.KeyUpDown | src/App.tsx:67-78 | ArrowUp/PageUp move to index i-1, and ArrowDown/PageDown to i+1, clamped at both ends |
| Navigation.KeyHomeEnd | src/App.tsx:79-84 | Home selects index 0 and End index 5; pressing the same key again, at any time and width, changes nothing |
| Navigation.KeyOtherIgnored | src/App.tsx:85-86 | any other key leaves the whole state unchanged |
| Navigation.Dampen | src/App.tsx:152-154 | touchpad dampening keeps the sign and never grows a delta; it leaves deltas of magnitude 50 or more as they are |
| Navigation.WheelStep | src/App.tsx:105-185 | a wheel event keeps the state valid; whenever it changes the section, it starts a scroll at `now` with the accumulator reset |
| Navigation.WheelBlocked | src/App.tsx:106-135 | with a gate closed the wheel changes nothing; inside the cooldown only the idle reset of the accumulator can happen |
| Navigation.WheelBelowThreshold | src/App.tsx:157-162 | below an accumulated 150 the section and the in-flight flag stay, and the accumulator keeps the new sum and direction |
| Navigation.WheelAtThreshold | src/App.tsx:164-180 | at 150 or more the section moves one index in the accumulator's direction, clamped at both ends; a scroll starts and the accumulator resets |
| Navigation.WheelAtMostOne | src/App.tsx:167-174 | one wheel event never moves more than one section |
| Navigation.WheelIdleReset | src/App.tsx:127-130 | more than 200 ms after the last reset, the earlier sum is dropped |
| Navigation.WheelDirectionReset | src/App.tsx:146-149 | a delta whose sign differs from the previous delta's discards the earlier sum |
| Navigation.Step | src/App.tsx:56-236 | every event (key, wheel, timer, click, section in view) keeps the state valid |
| Navigation.Run | src/App.tsx:35-47 | any sequence of events keeps the state valid |
| Navigation.ReachableValid | src/App.tsx:36 | every reachable state shows one of the six sections, and the accumulator is below 150 |
| Text.ToLower | src/components/Analytics.tsx:156 | `toLowerCase` keeps the length, turns each capital into its own lower-case letter (code point plus 32), and leaves every other character as it is |
| Text.UpperChar | src/components/Analytics.tsx:161 | `toUpperCase` of a lower-case letter is the capital that lower-cases back to it; other characters are unchanged |
| Text.ToLowerIdempotent | src/components/Analytics.tsx:156 | lower-casing twice is lower-casing once |
| Text.SplitJoin | src/components/Analytics.tsx:157-163 | splitting the join of separator-free words gives back the words |
| Text.JoinSplit | src/components/Analytics.tsx:157-163 | joining the pieces of a split gives back the text |
| Text.ReplaceAllCaseOnly | src/components/Analytics.tsx:154-156 | replacing a pattern by a text that differs only in case is invisible after lower-casing |
| Text.TrimStart | src/components/Analytics.tsx:150 | `trim` drops exactly the leading white space |
| Text.TrimEnd | src/components/Analytics.tsx:150 | `trim` drops exactly the trailing white space |
| TitleFormat.SpaceBeforeCapitalsShape | src/components/Analytics.tsx:150 | the camelCase spacing never shortens the text, keeps its other characters in order, and puts a space before every capital |
| TitleFormat.UnspaceSpaceBeforeCapitals | src/components/Analytics.tsx:150 | the spacing only inserts one space before each capital: deleting the space before each capital gives back the key, whatever spaces it already held |
| TitleFormat.FormatTitleWords | src/components/Analytics.tsx:148-164 | every word of a title is lower case, except GDP, GNI and the capital initial of the first word |
| TitleFormat.FormatTitleCaseOnly | src/components/Analytics.tsx:148-164 | a title differs from the spaced, trimmed key only in letter case |
| TitleFormat.AcronymReplacementsVanish | src/components/Analytics.tsx:154-156 | the Gdp and Gni replacements are undone by the lower-casing that follows them |
| TitleFormat.FormatTitleCamelCase | src/components/Analytics.tsx:148-164 | a camelCase key of lower-case words becomes those words joined by spaces, each re-cased |
| TitleFormat.FormatTitleGdpGrowth | src/components/Analytics.tsx:148-164 | "gdpGrowth" becomes "GDP growth" |
| TitleFormat.FormatTitleGniPerCapita | src/components/Analytics.tsx:148-164 | "gniPerCapita" becomes "GNI per capita" |
| NumberFormat.ThreeGroupsMultiple | src/components/Analytics.tsx:110 | the lookahead `(\d{3})+` matches a digit run whose length is a positive multiple of three |
| NumberFormat.GroupThousandsOnlyInserts | src/components/Analytics.tsx:110 | the separator only inserts commas; deleting every comma gives back the input |
| NumberFormat.GroupThousandsPlacement | src/components/Analytics.tsx:110 | on comma-free input, no comma comes first or after a non-word character such as '-' or '.', and every comma precedes a digit |
| NumberFormat.GroupThousandsLast | src/components/Analytics.tsx:118 | the last character is never changed |
| NumberFormat.DigitsGroupedIsRefGroup | src/components/Analytics.tsx:110 | the regular expression's commas inside a run of digits are exactly the grouping by threes from the right |
| NumberFormat.RefGroupShape | src/components/Analytics.tsx:125 | a grouped integer part is 1-3 digits followed by groups of exactly three, and its digits are the input's |
| NumberFormat.GroupFixed | src/components/Analytics.tsx:110-125 | on `toFixed(2)` text, the sign and the two decimals are kept and the integer digits are grouped by threes |
| NumberFormat.GroupThousandsNoData | src/components/Analytics.tsx:104-106 | the separator yields "No data" only from "No data" itself |
| NumberFormat.NoDigitsUnchanged | src/components/Analytics.tsx:110 | text without digits passes through unchanged |
| NumberFormat.OutputKeepsCommas | src/components/Analytics.tsx:110 | every character of the input, commas included, appears in the output |
| MetricCard.UnitFor | src/components/Analytics.tsx:391-394 | the unit is "%" for gdpGrowth, inflation and unemployment, "M" for population, "% of GDP" for exports, and "$" for every other key, each in both directions |
| MetricCard.CardFor | src/components/Analytics.tsx:385-397 | a card built from a metric always has a value, so it never shows "N/A"; any history, even an empty one, is kept, and only a missing history is replaced by the fallback series; the unit is "$" exactly for keys outside the five the mapping names |
| MetricCard.TrendSignsAgree | src/components/Analytics.tsx:89 | a zero trend counts as positive (rising arrow) but gets no plus sign; otherwise the arrow and the sign agree |
| MetricCard.DataMissingOfMetric | src/components/Analytics.tsx:100 | data is missing if and only if the value is zero or every point of the series is zero |
| MetricCard.EmptyHistoryMissing | src/components/Analytics.tsx:100 | an empty history is kept as it is and counts as missing data |
| MetricCard.SpacelessTitleOnlyExports | src/components/Analytics.tsx:93-98 | for a title without spaces, the anomaly flag as written can only come from "exports" |
| MetricCard.AnomaliesAsWrittenOnlyExports | src/components/Analytics.tsx:93-98 | of the keys the unit mapping names, only "exports" can raise the anomaly flag as written |
| MetricCard.WatchedKnownKeys | src/components/Analytics.tsx:94 | of the named keys, only "exports" lower-cases to a compared title |
| MetricCard.GdpGrowthAnomalyMissed | src/components/Analytics.tsx:93-98 | a GDP-growth history with a value above 50 is not flagged as written |
| MetricCard.WatchedIntendedKnownKeys | src/components/Analytics.tsx:94 | compared through the description, exactly the gdpGrowth and exports keys are watched |
| MetricCard.GdpGrowthWarning | src/components/Analytics.tsx:180 | a GDP-growth card with a nonzero value and a history value above 50 shows no warning icon as written, and shows one with the corrected flag |
| MetricCard.GdpGrowthAnomalyIntended | src/components/Analytics.tsx:93-98 | compared through the description, a GDP-growth history with a value above 50 is flagged |
| MetricCard.ChartData | src/components/Analytics.tsx:143-146 | the chart has one point per value; point i carries value i and the month name at i mod 12, so the first point is "Jan" |
| MetricCard.ChartMonthsCycle | src/components/Analytics.tsx:145 | two points get the same month label if and only if their distance is a multiple of twelve |
| MetricCard.FormatNumberEnding | src/components/Analytics.tsx:103-126 | outside the "No data" case the value text ends in a digit, or in "k" for thousands of GNI per capita |
| MetricCard.FormatNumberNoData | src/components/Analytics.tsx:104-106 | `formatNumber` says "No data" if and only if the number is zero and data is missing |
| MetricCard.FormattedValueCases | src/components/Analytics.tsx:142 | the value box says "N/A" exactly when there is no value, and "No data" exactly when the value is zero |
| MetricCard.GniTooltipMatchesValue | src/components/Analytics.tsx:113-138 | outside the "No data" case (zero with missing data), the tooltip of a GNI-per-capita card shows what the value box shows |
| MetricCard.PopulationTooltip | src/components/Analytics.tsx:108-132 | outside the "No data" case (zero with missing data), the tooltip of a population card is the value text without its commas, followed by "M" |
| MetricCard.TooltipOnNoData | src/components/Analytics.tsx:104-137 | at zero with missing data, the value box of a population or GNI-per-capita card says "No data" while its tooltip shows the `toFixed(2)` text ("M" appended on a population card), so the two differ |
| MetricCard.PopulationValueGrouped | src/components/Analytics.tsx:108-111 | on a population card the value is the `toFixed(2)` text with its integer digits grouped by threes |

## Left out

- `api/vat/[countryCode]/[vatNumber].js`, the VAT-lookup proxy, is not part of this model. It lies outside the client-side navigation and metric cards modelled here, and its logic is mostly I/O. That logic is a 200 reply to OPTIONS, a 400 for missing parameters, `valid` defaulting to false, and errors sorted into the upstream status, 504 on a timeout, or 500.
- Rendering, animation, charts and styling are presentation only. This covers the cookie banner and its `localStorage` flag (`src/App.tsx:49-52`), and the Y-axis tick formatter and domain.
- `scrollIntoView` and `preventDefault` are effects on the page, not on the navigation state.
- The `containerRef` null check of the wheel handler (`src/App.tsx:122`) is dropped. The wheel listener is only attached when the container exists (`src/App.tsx:187-190`), so the check always passes while the handler can run.
- The `setTimeout` that clears `isScrolling` after 500 ms is the `ScrollSettled` event. When it fires is not modelled.
- The intersection observer is the `SectionVisible` event: an index or -1. Which element is in view is not modelled.
- The clock, the window width and "the mouse is over a select or dropdown" are parameters of the handlers.
- The wheel delta is the normalised delta. The `deltaMode` multipliers (×5 per line, a quarter of the window height per page) are device input scaling and are left out.
- Navigation.Dampen: JavaScript doubles are modelled as exact reals, so rounding in the dampening and the accumulator is not modelled.
- `toFixed(2)` and `toLocaleString()` are function parameters. The divisions by 1000 and 1 000 000 before them are kept. Only the comma insertion on the text they produce is modelled. MetricCard.FormatNumberEnding, MetricCard.FormatNumberNoData and MetricCard.FormattedValueCases assume only that the text of `toFixed(2)` is non-empty and ends in a digit (MetricCard.EndsInDigit), which holds for every finite number, the exponent form such as "1e+21" included. MetricCard.PopulationTooltip, MetricCard.PopulationValueGrouped and MetricCard.TooltipOnNoData assume the fixed form (an optional minus, digits, a point and two digits, MetricCard.FixedText) only for the number they format, which holds below 10^21.
- Case mapping covers ASCII letters only. JavaScript's `toLowerCase` and `toUpperCase` are full Unicode.
- The random fallback series for a metric without history is the parameter `fallback`.
- Fetching the country list and metrics goes through `../lib/api`, which is not part of this model. The same holds for the refresh button, the error banner and the "last updated" time.
- The one-year average, peak and low boxes (`src/components/Analytics.tsx:222-228`, `:299-314`) pass the average, maximum and minimum of the series to `formatNumber`. The `formatNumber` they call is modelled; the three aggregates are left out, because they are floating-point arithmetic over the series. The trend badge (`src/components/Analytics.tsx:205`) shows `Math.abs(trend).toFixed(2)`; it is left out because `toFixed(2)` is a parameter of the model. Only its arrow, through `isPositive`, is modelled.

## Findings

| source | as written | input that shows it | evidently intended | confidence | as-written member | corrected member |
|---|---|---|---|---|---|---|
| src/components/Analytics.tsx:94 | `hasAnomalies` compares `title.toLowerCase()` with "gdp growth", but the title is the raw key, which lower-cases to "gdpgrowth" | the card for key "gdpGrowth" with history [60] shows no anomaly warning | compare the lower-cased description ("gdp growth"), so that large GDP-growth changes are flagged | not executed | MetricCard.GdpGrowthAnomalyMissed | MetricCard.GdpGrowthAnomalyIntended |

`MetricCard.HasAnomalies` is the flag as written and `MetricCard.ShowsWarning` the warning icon built on it. `MetricCard.HasAnomaliesIntended` and `MetricCard.ShowsWarningIntended` are the corrected versions. `MetricCard.GdpGrowthWarning` shows the difference on the icon itself.

The `Gdp` and `Gni` replacements in `formatTitle` run before `toLowerCase`, so they have no effect (`TitleFormat.AcronymReplacementsVanish`). The acronyms come out right anyway, because the word mapping that follows restores them.

=== FILE: metric_card.dfy ===
/** One card of the economic-indicators panel (src/components/Analytics.tsx):
    a metric key with its latest value, its year-on-year trend and a history
    series, shown with a unit, a formatted value, a chart with month labels
    and a warning icon for missing or unusual data. The float-to-text
    conversions `toFixed(2)` and `toLocaleString()` are parameters. */
module MetricCard {
  import opened Wrappers
  import opened Text
  import opened TitleFormat
  import opened NumberFormat
  import opened Reals

  /** A metric as delivered by the data source. */
  datatype Metric = Metric(value: real, trend: real, historicalData: Option<seq<real>>)

  /** The props of `MetricCard`. */
  datatype Card = Card(
    title: string,
    value: Option<real>,
    trend: real,
    unit: string,
    description: string,
    data: seq<real>)

  // ---------------------------------------------------------------------
  // Building a card from a metric

  /** The metric keys the unit mapping names. */
  const KnownKeys: seq<string> := ["gdpGrowth", "inflation", "unemployment", "population", "exports"]

  /** The unit shown next to a metric's value. */
  function UnitFor(key: string): (u: string)
    ensures u == "%" <==> key == "gdpGrowth" || key == "inflation" || key == "unemployment"
    ensures u == "M" <==> key == "population"
    ensures u == "% of GDP" <==> key == "exports"
    ensures u == "$" <==> key !in KnownKeys
  {
    if key == "gdpGrowth" || key == "inflation" || key == "unemployment" then "%"
    else if key == "population" then "M"
    else if key == "exports" then "% of GDP"
    else "$"
  }

  /** The card for metric `key`. A metric without history gets the series
      `fallback` instead (in the page, twelve random values); any history,
      even an empty one, is kept, since an array is truthy for `||`. */
  function CardFor(key: string, m: Metric, fallback: seq<real>): (c: Card)
    ensures c.value.Some?
    ensures m.historicalData.Some? ==> c.data == m.historicalData.value
    ensures m.historicalData.None? ==> c.data == fallback
    ensures c.unit == "$" <==> key !in KnownKeys
  {
    Card(key, Some(m.value), m.trend, UnitFor(key), Description(key), m.historicalData.GetOr(fallback))
  }

  // ---------------------------------------------------------------------
  // Predicates

  /** `isPositive`: the trend colour and arrow; a zero trend counts as
      positive. */
  predicate IsPositive(c: Card) { c.trend >= 0.0 }

  /** The sign printed before the trend in the year-on-year box. */
  function YoYPrefix(trend: real): string { if trend > 0.0 then "+" else "" }

  /** The arrow and the year-on-year sign agree except at a zero trend, which
      gets the rising arrow and no plus sign. */
  lemma TrendSignsAgree(c: Card)
    ensures IsPositive(c) && c.trend != 0.0 ==> YoYPrefix(c.trend) == "+"
    ensures !IsPositive(c) ==> YoYPrefix(c.trend) == ""
    ensures c.trend == 0.0 ==> IsPositive(c) && YoYPrefix(c.trend) == ""
  {
  }

  /** `isDataMissing`: the whole series is zero (vacuously so when it is
      empty) or the current value is zero. */
  predicate IsDataMissing(c: Card)
  {
    (forall i :: 0 <= i < |c.data| ==> c.data[i] == 0.0) || c.value == Some(0.0)
  }

  /** On a card built from a metric, data is missing exactly when the value
      is zero or every point of the history (or of the fallback, for a
      metric without history) is zero. */
  lemma DataMissingOfMetric(key: string, m: Metric, fallback: seq<real>)
    ensures var c := CardFor(key, m, fallback);
      IsDataMissing(c) <==> m.value == 0.0 || OnlyZeros(m.historicalData.GetOr(fallback))
  {
    AllZero(m.historicalData.GetOr(fallback));
  }

  /** Every point of the series is zero. */
  predicate OnlyZeros(d: seq<real>)
  {
    forall x :: x in d ==> x == 0.0
  }

  lemma AllZero(d: seq<real>)
    ensures (forall i :: 0 <= i < |d| ==> d[i] == 0.0) <==> OnlyZeros(d)
  {
    if forall i :: 0 <= i < |d| ==> d[i] == 0.0 {
      forall x | x in d
        ensures x == 0.0
      {
        var i :| 0 <= i < |d| && d[i] == x;
      }
    } else {
      var i :| 0 <= i < |d| && d[i] != 0.0;
      assert d[i] in d;
    }
  }

  /** An empty history is used as it is, not replaced by the fallback, and
      counts as missing data. */
  lemma EmptyHistoryMissing(key: string, m: Metric, fallback: seq<real>)
    requires m.historicalData == Some([])
    ensures CardFor(key, m, fallback).data == []
    ensures IsDataMissing(CardFor(key, m, fallback))
  {
  }

  /** The titles `hasAnomalies` watches, as the source compares them: the
      lower-cased title against "exports" and "gdp growth". */
  predicate Watched(title: string)
  {
    ToLower(title) == "exports" || ToLower(title) == "gdp growth"
  }

  /** Some value of the series moves by more than 50 (percent). */
  predicate HasLargeValue(data: seq<real>)
  {
    exists i :: 0 <= i < |data| && Abs(data[i]) > 50.0
  }

  /** `hasAnomalies` as written. */
  predicate HasAnomalies(c: Card)
  {
    Watched(c.title) && HasLargeValue(c.data)
  }

  /** The titles meant to be watched: the lower-cased description of the
      key, which is the lower-cased display title. */
  predicate WatchedIntended(title: string)
  {
    ToLower(Description(title)) == "exports" || ToLower(Description(title)) == "gdp growth"
  }

  /** `hasAnomalies` with the GDP-growth card recognised. */
  predicate HasAnomaliesIntended(c: Card)
  {
    WatchedIntended(c.title) && HasLargeValue(c.data)
  }

  /** The warning icon beside the title, as written. */
  predicate ShowsWarning(c: Card)
  {
    HasAnomalies(c) || IsDataMissing(c)
  }

  /** The warning icon with the corrected anomaly flag. */
  predicate ShowsWarningIntended(c: Card)
  {
    HasAnomaliesIntended(c) || IsDataMissing(c)
  }

  /** A title without spaces lower-cases to text without spaces, so the
      "gdp growth" comparison never succeeds for one: as written, only an
      "exports" title can raise the anomaly flag. */
  lemma SpacelessTitleOnlyExports(c: Card)
    requires ' ' !in c.title
    ensures HasAnomalies(c) ==> ToLower(c.title) == "exports"
  {
    ToLowerSpaceFree(c.title);
    assert "gdp growth"[3] == ' ';
  }

  lemma ToLowerSpaceFree(s: string)
    requires ' ' !in s
    ensures ' ' !in ToLower(s)
  {
    forall i | 0 <= i < |s|
      ensures ToLower(s)[i] != ' '
    {
      assert s[i] in s;
    }
  }

  /** Of the named keys, only "exports" can be flagged as written, whatever
      its series. */
  lemma AnomaliesAsWrittenOnlyExports(key: string, m: Metric, fallback: seq<real>)
    requires key in KnownKeys
    ensures HasAnomalies(CardFor(key, m, fallback)) ==> key == "exports"
  {
    WatchedKnownKeys(key);
  }

  /** Of the named keys, only "exports" lower-cases to a watched title: the
      others differ in length, and "population" in its first letter. */
  lemma WatchedKnownKeys(key: string)
    requires key in KnownKeys
    ensures Watched(key) ==> key == "exports"
  {
    if key == "population" {
      assert ToLower(key)[0] == 'p';
    } else if key != "exports" {
      assert |ToLower(key)| == |key|;
    }
  }

  /** The GDP-growth card with a value above 50 in its history (60, say):
      as written, no anomaly is flagged. */
  lemma GdpGrowthAnomalyMissed(m: Metric, fallback: seq<real>)
    requires HasLargeValue(m.historicalData.GetOr(fallback))
    ensures var c := CardFor("gdpGrowth", m, fallback);
      HasLargeValue(c.data) && !HasAnomalies(c)
  {
    GdpGrowthNotWatched();
  }

  /** "gdpgrowth" has nine letters, the watched titles seven and ten. */
  lemma GdpGrowthNotWatched()
    ensures !Watched("gdpGrowth")
  {
    assert |ToLower("gdpGrowth")| == 9;
  }

  /** With the comparison on the description, the GDP-growth and exports
      cards are watched and the other named keys are not. */
  lemma WatchedIntendedKnownKeys(key: string)
    requires key in KnownKeys
    ensures WatchedIntended(key) <==> key == "gdpGrowth" || key == "exports"
  {
    if key == "gdpGrowth" {
      GdpGrowthDescription();
    } else {
      LowerKeysAreLower(key);
      LowerKeyDescription(key);
    }
  }

  /** With the comparison on the description, a large value in the
      GDP-growth history raises the flag. */
  lemma GdpGrowthAnomalyIntended(m: Metric, fallback: seq<real>)
    requires HasLargeValue(m.historicalData.GetOr(fallback))
    ensures HasAnomaliesIntended(CardFor("gdpGrowth", m, fallback))
  {
    GdpGrowthDescription();
  }

  /** A GDP-growth card with a nonzero value and a value above 50 in its
      history shows no warning as written, and shows one once corrected. */
  lemma GdpGrowthWarning(m: Metric, fallback: seq<real>)
    requires HasLargeValue(m.historicalData.GetOr(fallback)) && m.value != 0.0
    ensures var c := CardFor("gdpGrowth", m, fallback);
      !ShowsWarning(c) && ShowsWarningIntended(c)
  {
    var d := m.historicalData.GetOr(fallback);
    var i :| 0 <= i < |d| && Abs(d[i]) > 50.0;
    assert d[i] != 0.0;
    GdpGrowthAnomalyMissed(m, fallback);
    GdpGrowthAnomalyIntended(m, fallback);
  }

  lemma GdpGrowthDescription()
    ensures ToLower(Description("gdpGrowth")) == "gdp growth"
  {
    GdpGrowthLowered();
    LoweredTitleIs("gdpGrowth");
  }

  lemma GdpGrowthLowered()
    ensures LoweredTitle("gdpGrowth") == "gdp growth"
  {
    GdpGrowthWords();
    LoweredCamelCase(["gdp", "growth"]);
    JoinGdpGrowth();
  }

  lemma JoinGdpGrowth()
    ensures Join(["gdp", "growth"], ' ') == "gdp growth"
  {
  }

  lemma LowerKeysAreLower(key: string)
    requires key in KnownKeys && key != "gdpGrowth"
    ensures |key| > 0 && forall i :: 0 <= i < |key| ==> IsLower(key[i])
  {
  }

  /** A key of lower-case letters describes itself. */
  lemma LowerKeyDescription(key: string)
    requires |key| > 0 && forall i :: 0 <= i < |key| ==> IsLower(key[i])
    ensures ToLower(Description(key)) == key
  {
    SpaceBeforeCapitalsNoCapitals(key);
    TrimUnpadded(key);
    ToLowerNoUpper(key);
  }

  // ---------------------------------------------------------------------
  // Chart labels

  const Months: seq<string> :=
    ["Jan", "Feb", "Mar", "Apr", "May", "Jun", "Jul", "Aug", "Sep", "Oct", "Nov", "Dec"]

  /** A point of the history chart. */
  datatype ChartPoint = ChartPoint(value: real, month: string)

  /** `chartData`: each value labelled with the month its position falls on,
      counting from January and wrapping every twelve points. */
  function ChartData(data: seq<real>): (ps: seq<ChartPoint>)
    ensures |ps| == |data|
    ensures forall i :: 0 <= i < |ps| ==> ps[i].value == data[i] && ps[i].month == Months[i % 12]
    ensures |ps| > 0 ==> ps[0].month == "Jan"
  {
    seq(|data|, i requires 0 <= i < |data| => ChartPoint(data[i], Months[i % 12]))
  }

  /** Points twelve apart carry the same label, and the first twelve labels
      are twelve different months. */
  lemma ChartMonthsCycle(data: seq<real>, i: nat, j: nat)
    requires i < j < |data|
    ensures var ps := ChartData(data);
      ps[i].month == ps[j].month <==> (j - i) % 12 == 0
  {
    var ps := ChartData(data);
    assert ps[i].month == Months[i % 12] && ps[j].month == Months[j % 12];
    if i % 12 != j % 12 {
      MonthsDistinct(i % 12, j % 12);
    }
    ModDiff(i, j);
  }

  lemma MonthsDistinct(a: nat, b: nat)
    requires a < 12 && b < 12 && a != b
    ensures Months[a] != Months[b]
  {
  }

  lemma ModDiff(i: nat, j: nat)
    requires i < j
    ensures i % 12 == j % 12 <==> (j - i) % 12 == 0
  {
    var q, r := i / 12, i % 12;
    var q', r' := j / 12, j % 12;
    assert j - i == 12 * (q' - q) + (r' - r);
    if (j - i) % 12 == 0 {
      var k := (j - i) / 12;
      assert r' - r == 12 * (k - q' + q);
    }
  }

  // ---------------------------------------------------------------------
  // Value formatting

  predicate IsPopulation(c: Card) { ToLower(c.title) == "population" }
  predicate IsGniPerCapita(c: Card) { ToLower(c.title) == "gnipercapita" }

  /** What `toFixed(2)` gives for every finite number, the exponent form
      such as "1e+21" included: non-empty text ending in a digit. */
  predicate EndsInDigit(t: string)
  {
    |t| > 0 && IsDigit(t[|t| - 1])
  }

  /** The text `toFixed(2)` gives for a number below 10^21 in magnitude: an
      optional minus, at least one digit, a point and two digits. */
  predicate FixedText(t: string)
  {
    && |t| >= 4
    && var k := if t[0] == '-' then 1 else 0;
    && |t| >= k + 4
    && t[|t| - 3] == '.'
    && FixedShape(t[..k], t[k..|t| - 3], t[|t| - 2..])
  }

  lemma FixedTextParts(t: string)
    requires FixedText(t)
    ensures var k := if t[0] == '-' then 1 else 0;
      t == t[..k] + t[k..|t| - 3] + "." + t[|t| - 2..]
  {
  }

  /** The GNI-per-capita branch shared by the value and the tooltip:
      thousands shown as "k". */
  function GniText(num: real, toFixed2: real -> string): string
  {
    if num >= 1000.0 then GroupThousands(toFixed2(num / 1000.0)) + "k"
    else GroupThousands(toFixed2(num))
  }

  /** `formatNumber`. */
  function FormatNumber(c: Card, num: real, toFixed2: real -> string): string
  {
    if num == 0.0 && IsDataMissing(c) then "No data"
    else if IsPopulation(c) then GroupThousands(toFixed2(num))
    else if IsGniPerCapita(c) then GniText(num, toFixed2)
    else if num >= 1000000.0 then GroupThousands(toFixed2(num / 1000000.0))
    else GroupThousands(toFixed2(num))
  }

  /** `formattedValue`: "N/A" for a card without a value. */
  function FormattedValue(c: Card, toFixed2: real -> string): string
  {
    match c.value
    case None => "N/A"
    case Some(v) => FormatNumber(c, v, toFixed2)
  }

  /** `formatTooltipValue` (`toLocale` is `toLocaleString`). */
  function FormatTooltipValue(c: Card, v: real, toFixed2: real -> string, toLocale: real -> string): string
  {
    if IsPopulation(c) then toFixed2(v) + "M"
    else if IsGniPerCapita(c) then GniText(v, toFixed2)
    else toLocale(v) + c.unit
  }

  /** Outside the "No data" branch the value text ends in a digit, or in "k"
      for thousands of GNI per capita. */
  lemma FormatNumberEnding(c: Card, num: real, toFixed2: real -> string)
    requires forall x :: EndsInDigit(toFixed2(x))
    requires !(num == 0.0 && IsDataMissing(c))
    ensures var r := FormatNumber(c, num, toFixed2);
      |r| > 0 && (IsDigit(r[|r| - 1]) || r[|r| - 1] == 'k')
  {
    var r := FormatNumber(c, num, toFixed2);
    if !(IsGniPerCapita(c) && !IsPopulation(c) && num >= 1000.0) {
      var y := if IsPopulation(c) || IsGniPerCapita(c) || num < 1000000.0 then num else num / 1000000.0;
      var t := toFixed2(y);
      assert r == GroupThousands(t);
      GroupThousandsLast(t);
    }
  }

  /** `formatNumber` says "No data" exactly for a zero on a card with
      missing data, whenever `toFixed(2)` produces its usual text. */
  lemma FormatNumberNoData(c: Card, num: real, toFixed2: real -> string)
    requires forall x :: EndsInDigit(toFixed2(x))
    ensures FormatNumber(c, num, toFixed2) == "No data" <==> num == 0.0 && IsDataMissing(c)
  {
    if !(num == 0.0 && IsDataMissing(c)) {
      FormatNumberEnding(c, num, toFixed2);
    }
  }

  /** The value box says "N/A" exactly when there is no value and "No data"
      exactly when the value is zero. */
  lemma FormattedValueCases(c: Card, toFixed2: real -> string)
    requires forall x :: EndsInDigit(toFixed2(x))
    ensures FormattedValue(c, toFixed2) == "N/A" <==> c.value.None?
    ensures FormattedValue(c, toFixed2) == "No data" <==> c.value == Some(0.0)
  {
    if c.value.Some? {
      var v := c.value.value;
      FormatNumberNoData(c, v, toFixed2);
      if !(v == 0.0 && IsDataMissing(c)) {
        FormatNumberEnding(c, v, toFixed2);
      }
    }
  }

  /** On a GNI-per-capita card the tooltip shows what the value box shows. */
  lemma GniTooltipMatchesValue(c: Card, v: real, toFixed2: real -> string, toLocale: real -> string)
    requires IsGniPerCapita(c) && !(v == 0.0 && IsDataMissing(c))
    ensures FormatTooltipValue(c, v, toFixed2, toLocale) == FormatNumber(c, v, toFixed2)
  {
  }

  /** At zero with missing data the value box says "No data", but the
      tooltip of a population or GNI-per-capita card still shows the
      `toFixed(2)` text, with "M" on a population card. */
  lemma TooltipOnNoData(c: Card, toFixed2: real -> string, toLocale: real -> string)
    requires IsDataMissing(c) && (IsPopulation(c) || IsGniPerCapita(c))
    requires FixedText(toFixed2(0.0))
    ensures FormatNumber(c, 0.0, toFixed2) == "No data"
    ensures IsPopulation(c) ==> FormatTooltipValue(c, 0.0, toFixed2, toLocale) == toFixed2(0.0) + "M"
    ensures !IsPopulation(c) ==> FormatTooltipValue(c, 0.0, toFixed2, toLocale) == GroupThousands(toFixed2(0.0))
    ensures FormatTooltipValue(c, 0.0, toFixed2, toLocale) != FormatNumber(c, 0.0, toFixed2)
  {
    var t := toFixed2(0.0);
    assert t != "No data" by {
      assert "No data"[4] != '.';
    }
    GroupThousandsNoData(t);
    if IsPopulation(c) {
      assert (t + "M")[|t|] == 'M';
    }
  }

  /** On a population card the tooltip shows the value without its commas,
      followed by "M". */
  lemma PopulationTooltip(c: Card, v: real, toFixed2: real -> string, toLocale: real -> string)
    requires IsPopulation(c) && !(v == 0.0 && IsDataMissing(c))
    requires FixedText(toFixed2(v))
    ensures FormatTooltipValue(c, v, toFixed2, toLocale) == Without(FormatNumber(c, v, toFixed2), ',') + "M"
  {
    var t := toFixed2(v);
    assert ',' !in t by {
      var k := if t[0] == '-' then 1 else 0;
      FixedTextParts(t);
      assert forall i :: 0 <= i < |t| ==> t[i] != ',';
    }
    GroupThousandsOnlyInserts(t);
  }

  /** On a population card the value is `toFixed(2)` text with the integer
      digits grouped by threes and the sign and fraction untouched. */
  lemma PopulationValueGrouped(c: Card, v: real, toFixed2: real -> string)
    requires IsPopulation(c) && !(v == 0.0 && IsDataMissing(c))
    requires FixedText(toFixed2(v))
    ensures var t := toFixed2(v);
      var k := if t[0] == '-' then 1 else 0;
      FormatNumber(c, v, toFixed2) == t[..k] + RefGroup(t[k..|t| - 3]) + "." + t[|t| - 2..]
  {
    var t := toFixed2(v);
    var k := if t[0] == '-' then 1 else 0;
    FixedTextParts(t);
    GroupFixed(t[..k], t[k..|t| - 3], t[|t| - 2..]);
  }
}

=== FILE: navigation.dfy ===
/** Section navigation of the single-page site (src/App.tsx): the page is a
    fixed, ordered list of sections; the keyboard and the mouse wheel step
    through it one section at a time, gated by an in-flight flag, a cooldown
    and a minimum desktop width. Time is the integer millisecond clock the
    handlers read; a wheel delta is an exact real. */
module Navigation {
  import opened Wrappers
  import opened Reals

  /** The ids of `navigationSections`, in page order. */
  const Sections: seq<string> := ["home", "services", "expertise", "solutions", "analytics", "contact"]

  const ScrollThreshold: real := 150.0
  const ScrollCooldown: int := 300
  const AccumulatorResetDelay: int := 200
  /** Below this window width the handlers do nothing (the mobile layout). */
  const DesktopMinWidth: int := 1024
  /** Wheel deltas smaller than this in magnitude are taken to be a touchpad. */
  const TouchpadCutoff: real := 50.0
  const TouchpadDamping: real := 0.3

  /** `Array.prototype.findIndex` with an equality test: the first position
      holding `x`, or -1. */
  function FindIndex(xs: seq<string>, x: string): (r: int)
    ensures -1 <= r < |xs|
    ensures r == -1 <==> x !in xs
    ensures 0 <= r ==> xs[r] == x && x !in xs[..r]
  {
    if |xs| == 0 then -1
    else if xs[0] == x then 0
    else
      var k := FindIndex(xs[1..], x);
      if k == -1 then -1
      else
        assert xs[..k + 1] == [xs[0]] + xs[1..][..k];
        k + 1
  }

  /** The position of a section id in the page, or -1. */
  function SectionIndex(id: string): int
  {
    FindIndex(Sections, id)
  }

  /** Each section sits at exactly one position. */
  lemma SectionIndexOf(i: int)
    requires 0 <= i < |Sections|
    ensures SectionIndex(Sections[i]) == i
  {
    SectionsDistinct();
  }

  /** No id appears twice in the page. */
  lemma SectionsDistinct()
    ensures forall a, b :: 0 <= a < b < |Sections| ==> Sections[a] != Sections[b]
  {
  }

  /** The navigation state of `MainContent`: the `currentSection` and
      `isScrolling` state and the `lastScrollTime`, `scrollAccumulator`,
      `lastDelta` and `lastAccumulatorReset` refs. */
  datatype ScrollState = ScrollState(
    current: string,
    isScrolling: bool,
    lastScrollTime: int,
    accumulator: real,
    lastDelta: real,
    lastAccumulatorReset: int)

  /** `Math.sign`. */
  function Sign(x: real): int { if x < 0.0 then -1 else if x > 0.0 then 1 else 0 }

  /** The state on first render at time `now`. */
  function Init(now: int): (s: ScrollState)
    ensures Valid(s) && SectionIndex(s.current) == 0
  {
    ScrollState("home", false, now, 0.0, 0.0, now)
  }

  /** What every reachable state satisfies: the current section is one of the
      page's sections and the accumulator is below the threshold. */
  predicate Valid(s: ScrollState)
  {
    s.current in Sections && Abs(s.accumulator) < ScrollThreshold
  }

  /** `handleNavigate`: an id of a section makes it current; any other id
      finds index -1, whose ref is absent, and changes nothing. Scrolling the
      element into view is the effect on the page, not on this state. */
  function Navigate(s: ScrollState, id: string): (r: ScrollState)
    ensures id in Sections ==> r == s.(current := id)
    ensures id !in Sections ==> r == s
  {
    var i := SectionIndex(id);
    if 0 <= i then s.(current := Sections[i]) else s
  }

  // ---------------------------------------------------------------------
  // Keyboard

  predicate IsUpKey(key: string) { key == "ArrowUp" || key == "PageUp" }
  predicate IsDownKey(key: string) { key == "ArrowDown" || key == "PageDown" }
  predicate IsHandledKey(key: string) { IsUpKey(key) || IsDownKey(key) || key == "Home" || key == "End" }

  /** The section before `current`, or `current` itself at the top. */
  function StepUp(current: string): string
  {
    var i := SectionIndex(current);
    if i > 0 then Sections[i - 1] else current
  }

  /** The section after `current`, or `current` itself at the bottom. An id
      outside the page has index -1, so the step goes to the first section. */
  function StepDown(current: string): string
  {
    var i := SectionIndex(current);
    if i < |Sections| - 1 then Sections[i + 1] else current
  }

  /** Stepping up moves one index back, clamped at the first section. */
  lemma StepUpIndex(current: string)
    requires current in Sections
    ensures var i := SectionIndex(current);
      SectionIndex(StepUp(current)) == if i > 0 then i - 1 else i
  {
    var i := SectionIndex(current);
    if i > 0 {
      SectionIndexOf(i - 1);
    }
  }

  /** Stepping down moves one index on, clamped at the last section. */
  lemma StepDownIndex(current: string)
    requires current in Sections
    ensures var i := SectionIndex(current);
      SectionIndex(StepDown(current)) == if i < |Sections| - 1 then i + 1 else i
  {
    var i := SectionIndex(current);
    if i < |Sections| - 1 {
      SectionIndexOf(i + 1);
    }
  }

  /** The `switch (e.key)` of `handleKeyDown`: the section to go to, or None
      for a key the handler returns on. */
  function KeyTarget(key: string, current: string): (r: Option<string>)
    ensures r.None? <==> !IsHandledKey(key)
    ensures r.Some? ==> r.value == current || r.value in Sections
  {
    if IsUpKey(key) then Some(StepUp(current))
    else if IsDownKey(key) then Some(StepDown(current))
    else if key == "Home" then Some(Sections[0])
    else if key == "End" then Some(Sections[|Sections| - 1])
    else None
  }

  /** The three early returns of `handleKeyDown` all pass. */
  predicate KeyGateOpen(s: ScrollState, now: int, width: int)
  {
    width >= DesktopMinWidth && !s.isScrolling && now - s.lastScrollTime >= ScrollCooldown
  }

  /** `handleKeyDown` for key `key` at time `now` in a window `width` wide. */
  function KeyStep(s: ScrollState, key: string, now: int, width: int): (r: ScrollState)
    ensures Valid(s) ==> Valid(r)
    ensures r.accumulator == s.accumulator && r.lastDelta == s.lastDelta
    ensures r.lastAccumulatorReset == s.lastAccumulatorReset
    ensures r == s || (r.isScrolling && r.lastScrollTime == now && r.current != s.current)
  {
    if width < DesktopMinWidth then s
    else if s.isScrolling then s
    else if now - s.lastScrollTime < ScrollCooldown then s
    else
      match KeyTarget(key, s.current)
      case None => s
      case Some(next) =>
        if next != s.current then Navigate(s.(isScrolling := true, lastScrollTime := now), next)
        else s
  }

  /** From any valid state, every handled key selects a section of the page. */
  lemma KeyTargetInRange(key: string, current: string)
    requires current in Sections
    requires IsHandledKey(key)
    ensures KeyTarget(key, current).Some?
    ensures 0 <= SectionIndex(KeyTarget(key, current).value) < |Sections|
  {
  }

  /** A key press changes the state exactly when the gates are open, the key
      is handled and its target differs from the current section. */
  lemma KeyStepChangesIff(s: ScrollState, key: string, now: int, width: int)
    ensures KeyStep(s, key, now, width) != s <==>
      KeyGateOpen(s, now, width) && IsHandledKey(key) && KeyTarget(key, s.current).value != s.current
  {
  }

  /** Up and down keys move to the neighbouring section and stay put at the
      first and last section. */
  lemma KeyUpDown(s: ScrollState, key: string, now: int, width: int)
    requires Valid(s) && KeyGateOpen(s, now, width)
    requires IsUpKey(key) || IsDownKey(key)
    ensures var i := SectionIndex(s.current);
      var j := SectionIndex(KeyStep(s, key, now, width).current);
      && (IsUpKey(key) ==> j == (if i > 0 then i - 1 else i))
      && (IsDownKey(key) ==> j == (if i < |Sections| - 1 then i + 1 else i))
  {
    var r := KeyStep(s, key, now, width);
    if IsUpKey(key) {
      assert KeyTarget(key, s.current) == Some(StepUp(s.current));
      assert r.current == StepUp(s.current);
      StepUpIndex(s.current);
    } else {
      assert KeyTarget(key, s.current) == Some(StepDown(s.current));
      assert r.current == StepDown(s.current);
      StepDownIndex(s.current);
    }
  }

  /** Home selects the first section and End the last; pressing either a
      second time, at any time and width, changes nothing. */
  lemma KeyHomeEnd(s: ScrollState, key: string, now: int, width: int, later: int, width': int)
    requires KeyGateOpen(s, now, width)
    requires key == "Home" || key == "End"
    ensures var r := KeyStep(s, key, now, width);
      && (key == "Home" ==> SectionIndex(r.current) == 0)
      && (key == "End" ==> SectionIndex(r.current) == |Sections| - 1)
      && KeyStep(r, key, later, width') == r
  {
    var t := if key == "Home" then Sections[0] else Sections[|Sections| - 1];
    assert KeyTarget(key, s.current) == Some(t);
    var r := KeyStep(s, key, now, width);
    assert r.current == t;
    assert KeyTarget(key, r.current) == Some(t);
    SectionIndexOf(0);
    SectionIndexOf(|Sections| - 1);
  }

  /** Any other key leaves the section and the scroll state untouched. */
  lemma KeyOtherIgnored(s: ScrollState, key: string, now: int, width: int)
    requires !IsHandledKey(key)
    ensures KeyStep(s, key, now, width) == s
  {
  }

  // ---------------------------------------------------------------------
  // Mouse wheel

  /** The touchpad dampening: small deltas are scaled down, keeping their sign. */
  function Dampen(delta: real): (d: real)
    ensures Sign(d) == Sign(delta)
    ensures Abs(d) <= Abs(delta)
    ensures Abs(delta) >= TouchpadCutoff ==> d == delta
  {
    if Abs(delta) < TouchpadCutoff then delta * TouchpadDamping else delta
  }

  /** The early returns of `handleWheel` that come before the accumulator is
      touched: narrow window, wheel over a select or dropdown, scroll in flight. */
  predicate WheelGateOpen(s: ScrollState, overFormControl: bool, width: int)
  {
    width >= DesktopMinWidth && !overFormControl && !s.isScrolling
  }

  /** The accumulator reset after `AccumulatorResetDelay` ms without one. */
  function IdleReset(s: ScrollState, now: int): ScrollState
  {
    if now - s.lastAccumulatorReset > AccumulatorResetDelay
    then s.(accumulator := 0.0, lastAccumulatorReset := now)
    else s
  }

  /** The accumulator after adding `delta`: restarted from zero when the
      delta's sign differs from the previous delta's. */
  function Accumulated(s: ScrollState, delta: real): real
  {
    (if Sign(delta) != Sign(s.lastDelta) then 0.0 else s.accumulator) + Dampen(delta)
  }

  /** `handleWheel` for a normalised delta `delta` at time `now`. */
  function WheelStep(s: ScrollState, delta: real, overFormControl: bool, now: int, width: int): (r: ScrollState)
    ensures Valid(s) ==> Valid(r)
    ensures r.current != s.current ==> r.isScrolling && r.accumulator == 0.0 && r.lastScrollTime == now
  {
    if !WheelGateOpen(s, overFormControl, width) then s
    else
      var s1 := IdleReset(s, now);
      if now - s1.lastScrollTime < ScrollCooldown then s1
      else
        var acc := Accumulated(s1, delta);
        var s2 := s1.(lastDelta := delta, accumulator := acc);
        if Abs(acc) < ScrollThreshold then s2
        else
          var next :=
            if acc < 0.0 then StepUp(s.current)
            else if acc > 0.0 then StepDown(s.current)
            else s.current;
          Navigate(s2.(isScrolling := true, lastScrollTime := now,
                       accumulator := 0.0, lastAccumulatorReset := now), next)
  }

  /** The accumulator value a wheel event past the cooldown compares with the
      threshold. */
  function PendingAccumulator(s: ScrollState, delta: real, now: int): real
  {
    Accumulated(IdleReset(s, now), delta)
  }

  /** A narrow window, a form control under the mouse or a scroll in
      flight make the wheel do nothing at all; inside the cooldown only the
      idle reset of the accumulator can happen. */
  lemma WheelBlocked(s: ScrollState, delta: real, overFormControl: bool, now: int, width: int)
    requires !WheelGateOpen(s, overFormControl, width) || now - s.lastScrollTime < ScrollCooldown
    ensures var r := WheelStep(s, delta, overFormControl, now, width);
      && (!WheelGateOpen(s, overFormControl, width) ==> r == s)
      && r.current == s.current && r.isScrolling == s.isScrolling
      && r.lastScrollTime == s.lastScrollTime && r.lastDelta == s.lastDelta
      && (r.accumulator == s.accumulator || r.accumulator == 0.0)
  {
  }

  /** Below the threshold the section stays and no scroll starts; the
      accumulator keeps the new sum. */
  lemma WheelBelowThreshold(s: ScrollState, delta: real, overFormControl: bool, now: int, width: int)
    requires WheelGateOpen(s, overFormControl, width)
    requires now - s.lastScrollTime >= ScrollCooldown
    requires Abs(PendingAccumulator(s, delta, now)) < ScrollThreshold
    ensures var r := WheelStep(s, delta, overFormControl, now, width);
      && r.current == s.current && !r.isScrolling
      && r.accumulator == PendingAccumulator(s, delta, now)
      && r.lastDelta == delta
  {
  }

  /** At or past the threshold the section moves by one in the direction of
      the accumulator's sign, clamped at both ends; a scroll starts and the
      accumulator is reset. */
  lemma WheelAtThreshold(s: ScrollState, delta: real, overFormControl: bool, now: int, width: int)
    requires Valid(s) && WheelGateOpen(s, overFormControl, width)
    requires now - s.lastScrollTime >= ScrollCooldown
    requires Abs(PendingAccumulator(s, delta, now)) >= ScrollThreshold
    ensures var r := WheelStep(s, delta, overFormControl, now, width);
      var i := SectionIndex(s.current);
      var acc := PendingAccumulator(s, delta, now);
      && SectionIndex(r.current) == (if acc < 0.0 then (if i > 0 then i - 1 else i)
                                     else if i < |Sections| - 1 then i + 1 else i)
      && r.isScrolling && r.lastScrollTime == now
      && r.accumulator == 0.0 && r.lastAccumulatorReset == now
  {
    var acc := PendingAccumulator(s, delta, now);
    var r := WheelStep(s, delta, overFormControl, now, width);
    if acc < 0.0 {
      assert r.current == StepUp(s.current);
      StepUpIndex(s.current);
    } else {
      assert r.current == StepDown(s.current);
      StepDownIndex(s.current);
    }
  }

  /** One wheel event moves at most one section. */
  lemma WheelAtMostOne(s: ScrollState, delta: real, overFormControl: bool, now: int, width: int)
    requires Valid(s)
    ensures var i := SectionIndex(s.current);
      var j := SectionIndex(WheelStep(s, delta, overFormControl, now, width).current);
      i - 1 <= j <= i + 1
  {
    if WheelGateOpen(s, overFormControl, width) && now - IdleReset(s, now).lastScrollTime >= ScrollCooldown
       && Abs(PendingAccumulator(s, delta, now)) >= ScrollThreshold {
      WheelAtThreshold(s, delta, overFormControl, now, width);
    }
  }

  /** More than `AccumulatorResetDelay` ms after the last reset, the earlier
      sum is forgotten: inside the cooldown the accumulator is zero, past it
      it holds at most the new delta. */
  lemma WheelIdleReset(s: ScrollState, delta: real, overFormControl: bool, now: int, width: int)
    requires WheelGateOpen(s, overFormControl, width)
    requires now - s.lastAccumulatorReset > AccumulatorResetDelay
    ensures var r := WheelStep(s, delta, overFormControl, now, width);
      && r.lastAccumulatorReset == now
      && (now - s.lastScrollTime < ScrollCooldown ==> r.accumulator == 0.0)
      && (now - s.lastScrollTime >= ScrollCooldown ==>
            r.accumulator == (if Abs(Dampen(delta)) < ScrollThreshold then Dampen(delta) else 0.0))
  {
  }

  /** A delta whose sign differs from the previous delta's discards the
      earlier sum. */
  lemma WheelDirectionReset(s: ScrollState, delta: real, overFormControl: bool, now: int, width: int)
    requires WheelGateOpen(s, overFormControl, width)
    requires now - s.lastScrollTime >= ScrollCooldown
    requires Sign(delta) != Sign(s.lastDelta)
    ensures var r := WheelStep(s, delta, overFormControl, now, width);
      r.accumulator == (if Abs(Dampen(delta)) < ScrollThreshold then Dampen(delta) else 0.0)
  {
  }

  // ---------------------------------------------------------------------
  // The whole state machine

  /** The inputs that change the navigation state. */
  datatype Event =
    | KeyDown(key: string, now: int, width: int)
    | Wheel(delta: real, overFormControl: bool, now: int, width: int)
      /** the 500 ms timer that clears `isScrolling` */
    | ScrollSettled
      /** a click in the navigation bar, which calls `handleNavigate` */
    | NavClick(id: string)
      /** the intersection observer reporting the `sectionsRef` index of a
          section at least half in view, or -1 */
    | SectionVisible(index: int)

  function Step(s: ScrollState, e: Event): (r: ScrollState)
    ensures Valid(s) ==> Valid(r)
  {
    match e
    case KeyDown(key, now, width) => KeyStep(s, key, now, width)
    case Wheel(delta, over, now, width) => WheelStep(s, delta, over, now, width)
    case ScrollSettled => s.(isScrolling := false)
    case NavClick(id) => Navigate(s, id)
    case SectionVisible(index) =>
      if 0 <= index < |Sections| then s.(current := Sections[index]) else s
  }

  /** The state after a sequence of events. */
  function Run(s: ScrollState, es: seq<Event>): (r: ScrollState)
    ensures Valid(s) ==> Valid(r)
    decreases |es|
  {
    if |es| == 0 then s else Run(Step(s, es[0]), es[1..])
  }

  /** Every state reachable from the first render is valid: the current
      section is always a page section. */
  lemma ReachableValid(t0: int, es: seq<Event>)
    ensures Valid(Run(Init(t0), es))
    ensures 0 <= SectionIndex(Run(Init(t0), es).current) < |Sections|
  {
  }
}

=== FILE: number_format.dfy ===
/** The thousands separator of the metric cards (src/components/Analytics.tsx):
    `text.replace(/\B(?=(\d{3})+(?!\d))/g, ",")`. The pattern matches the
    empty string at every position that is not a word boundary and from
    which the run of digits has a positive length divisible by three; a
    comma is inserted at each such position of the original text. */
module NumberFormat {
  import opened Text

  /** The length of the run of digits starting at position `p`. */
  function DigitRun(s: string, p: nat): (n: nat)
    requires p <= |s|
    ensures p + n <= |s|
    decreases |s| - p
  {
    if p < |s| && IsDigit(s[p]) then 1 + DigitRun(s, p + 1) else 0
  }

  /** `\B` at position `p`: the characters on both sides are both word
      characters or both not (outside the text counts as not). */
  predicate NotWordBoundary(s: string, p: nat)
    requires p <= |s|
  {
    (p > 0 && IsWordChar(s[p - 1])) == (p < |s| && IsWordChar(s[p]))
  }

  /** `n` characters split into one or more groups of three: what
      `(\d{3})+` consumes of a digit run. */
  predicate ThreeGroups(n: nat)
    decreases n
  {
    n == 3 || (n > 3 && ThreeGroups(n - 3))
  }

  /** One or more groups of three are a positive multiple of three. */
  lemma {:induction false} ThreeGroupsMultiple(n: nat)
    ensures ThreeGroups(n) <==> n > 0 && n % 3 == 0
    decreases n
  {
    if n > 3 {
      ThreeGroupsMultiple(n - 3);
    }
  }

  /** The whole pattern matches the empty string at position `p`:
      `(\d{3})+(?!\d)` succeeds exactly when the digit run from `p`
      splits into groups of three, the lookahead forcing the groups to use
      up the run. */
  predicate CommaAt(s: string, p: nat)
    requires p <= |s|
  {
    NotWordBoundary(s, p) && ThreeGroups(DigitRun(s, p))
  }

  /** The replacement applied from position `i` on. */
  function GroupedFrom(s: string, i: nat): string
    decreases |s| - i
  {
    if i >= |s| then ""
    else (if CommaAt(s, i) then "," else "") + [s[i]] + GroupedFrom(s, i + 1)
  }

  /** The thousands separator applied to a whole text. */
  function GroupThousands(s: string): string
  {
    GroupedFrom(s, 0)
  }

  // ---------------------------------------------------------------------
  // The replacement only inserts commas

  lemma {:induction false} GroupedFromOnlyInserts(s: string, i: nat)
    requires i <= |s|
    ensures Without(GroupedFrom(s, i), ',') == Without(s[i..], ',')
    decreases |s| - i
  {
    if i < |s| {
      GroupedFromOnlyInserts(s, i + 1);
      WithoutStep(if CommaAt(s, i) then "," else "", s[i], GroupedFrom(s, i + 1), s[i + 1..]);
      assert s[i..] == [s[i]] + s[i + 1..];
    }
  }

  /** One step of the replacement: a possible comma, then a character kept. */
  lemma WithoutStep(c: string, x: char, rest: string, tail: string)
    requires c == "" || c == ","
    requires Without(rest, ',') == Without(tail, ',')
    ensures Without(c + [x] + rest, ',') == Without([x] + tail, ',')
  {
    WithoutConcat(c, [x] + rest, ',');
    assert c + [x] + rest == c + ([x] + rest);
    WithoutConcat([x], rest, ',');
    WithoutConcat([x], tail, ',');
  }

  /** Deleting every comma from the output gives the input with its own
      commas deleted; for input without commas, the input itself. */
  lemma GroupThousandsOnlyInserts(s: string)
    ensures Without(GroupThousands(s), ',') == Without(s, ',')
    ensures ',' !in s ==> Without(GroupThousands(s), ',') == s
  {
    GroupedFromOnlyInserts(s, 0);
    WithoutShape(s, ',');
    assert s[0..] == s;
  }

  /** Where the inserted commas sit, for input without commas: never first,
      always after a word character and before a digit. */
  lemma {:induction false} GroupedFromPlacement(s: string, i: nat)
    requires i <= |s|
    requires ',' !in s
    ensures var r := GroupedFrom(s, i);
      && (|r| > 0 && r[0] == ',' ==> i < |s| && CommaAt(s, i))
      && (forall k :: 0 < k < |r| && r[k] == ',' ==> IsWordChar(r[k - 1]))
      && (forall k :: 0 <= k < |r| && r[k] == ',' ==> k + 1 < |r| && IsDigit(r[k + 1]))
    decreases |s| - i
  {
    if i < |s| {
      GroupedFromPlacement(s, i + 1);
      var rest := GroupedFrom(s, i + 1);
      var head := (if CommaAt(s, i) then "," else "") + [s[i]];
      var r := head + rest;
      assert r == GroupedFrom(s, i);
      assert s[i] != ',' by {
        assert s[i] in s;
      }
      if CommaAt(s, i) {
        assert IsDigit(s[i]);
      }
      if |rest| > 0 && rest[0] == ',' {
        assert i + 1 < |s| && CommaAt(s, i + 1);
        assert IsWordChar(s[i]);
      }
      forall k | 0 < k < |r| && r[k] == ','
        ensures IsWordChar(r[k - 1])
      {
        if k - |head| == 0 {
          assert r[k - 1] == s[i];
        } else if k > |head| {
          assert r[k] == rest[k - |head|] && r[k - 1] == rest[k - 1 - |head|];
        }
      }
      forall k | 0 <= k < |r| && r[k] == ','
        ensures k + 1 < |r| && IsDigit(r[k + 1])
      {
        if k >= |head| {
          assert r[k] == rest[k - |head|];
          assert r[k + 1] == rest[k + 1 - |head|];
        }
      }
    }
  }

  /** For input without commas: the output never starts with a comma, every
      comma follows a word character (so never a '-' or a '.') and precedes
      a digit. */
  lemma GroupThousandsPlacement(s: string)
    requires ',' !in s
    ensures var r := GroupThousands(s);
      && (|r| > 0 ==> r[0] != ',')
      && (forall k :: 0 <= k < |r| && r[k] == ',' ==>
            0 < k && IsWordChar(r[k - 1]) && r[k - 1] != '-' && k + 1 < |r| && IsDigit(r[k + 1]))
  {
    GroupedFromPlacement(s, 0);
  }

  lemma {:induction false} GroupedFromLast(s: string, i: nat)
    requires i < |s|
    ensures var r := GroupedFrom(s, i); |r| > 0 && r[|r| - 1] == s[|s| - 1]
    decreases |s| - i
  {
    if i + 1 < |s| {
      GroupedFromLast(s, i + 1);
    }
  }

  /** The separator never adds anything after the last character. */
  lemma GroupThousandsLast(s: string)
    requires |s| > 0
    ensures var r := GroupThousands(s); |r| > 0 && r[|r| - 1] == s[|s| - 1]
  {
    GroupedFromLast(s, 0);
  }

  // ---------------------------------------------------------------------
  // On the output of `toFixed(2)`

  /** Grouping by threes from the right, the way thousands are written. */
  function RefGroup(d: string): string
    decreases |d|
  {
    if |d| <= 3 then d else RefGroup(d[..|d| - 3]) + "," + d[|d| - 3..]
  }

  /** The comma placement restricted to a run of digits `d` of its own:
      before position `j` exactly when `j > 0` and a multiple of three
      digits follow. */
  function DigitsGrouped(d: string, j: nat): string
    decreases |d| - j
  {
    if j >= |d| then ""
    else CommaBefore(d, j) + [d[j]] + DigitsGrouped(d, j + 1)
  }

  /** The comma `DigitsGrouped` puts before digit `j`: none before the
      first digit, one wherever a positive multiple of three digits follow. */
  function CommaBefore(d: string, j: nat): string
  {
    if 0 < j <= |d| && ThreeGroups(|d| - j) then "," else ""
  }

  lemma {:induction false} DigitsGroupedShort(d: string, j: nat)
    requires j <= |d| <= 3
    ensures DigitsGrouped(d, j) == d[j..]
    decreases |d| - j
  {
    if j < |d| {
      DigitsGroupedShort(d, j + 1);
      assert d[j..] == [d[j]] + d[j + 1..];
    }
  }

  lemma DigitsGroupedStep(d: string, j: nat)
    requires j < |d|
    ensures CommaBefore(d, j) + [d[j]] + DigitsGrouped(d, j + 1) == DigitsGrouped(d, j)
  {
  }

  /** Within the last three digits no comma is placed after the first. */
  lemma {:induction false} DigitsGroupedTail(d: string, j: nat)
    requires 0 < j <= |d| && |d| - j < 3
    ensures DigitsGrouped(d, j) == d[j..]
    decreases |d| - j
  {
    if j < |d| {
      DigitsGroupedStep(d, j);
      DigitsGroupedTail(d, j + 1);
      assert d[j..] == [d[j]] + d[j + 1..];
    }
  }

  lemma {:induction false} DigitsGroupedAppend(a: string, b: string, j: nat)
    requires |a| >= 1 && |b| == 3 && j <= |a|
    ensures DigitsGrouped(a + b, j) == DigitsGrouped(a, j) + "," + b
    decreases |a| - j
  {
    var d := a + b;
    if j == |a| {
      calc {
        DigitsGrouped(d, j);
        { DigitsGroupedStep(d, j); }
        "," + [d[j]] + DigitsGrouped(d, j + 1);
        { DigitsGroupedTail(d, j + 1); }
        "," + [d[j]] + d[j + 1..];
        { assert d[j..] == [d[j]] + d[j + 1..] && d[j..] == b; }
        "," + b;
      }
    } else {
      var c := if j > 0 && ThreeGroups(|a| - j) then "," else "";
      var g := DigitsGrouped(a, j + 1);
      calc {
        DigitsGrouped(d, j);
        { DigitsGroupedStep(d, j); assert |d| - j == (|a| - j) + 3; }
        c + [d[j]] + DigitsGrouped(d, j + 1);
        { DigitsGroupedAppend(a, b, j + 1); }
        c + [a[j]] + (g + "," + b);
        c + [a[j]] + g + "," + b;
        { DigitsGroupedStep(a, j); }
        DigitsGrouped(a, j) + "," + b;
      }
    }
  }

  /** Commas placed from the left by the regular expression agree with
      grouping by threes from the right. */
  lemma {:induction false} DigitsGroupedIsRefGroup(d: string)
    ensures DigitsGrouped(d, 0) == RefGroup(d)
    decreases |d|
  {
    if |d| <= 3 {
      DigitsGroupedShort(d, 0);
    } else {
      var a, b := d[..|d| - 3], d[|d| - 3..];
      assert d == a + b;
      DigitsGroupedAppend(a, b, 0);
      DigitsGroupedIsRefGroup(a);
    }
  }

  /** `d` is a maximal run of digits at position `o` of `s`, followed by
      some character and not preceded by a word character. */
  predicate DigitsAt(s: string, o: nat, d: string)
  {
    && o + |d| < |s| && (forall i :: 0 <= i < |d| ==> s[o + i] == d[i])
    && AllDigits(d) && !IsDigit(s[o + |d|])
    && (o == 0 || !IsWordChar(s[o - 1]))
  }

  /** The digit run from inside such a `d` ends where `d` ends. */
  lemma {:induction false} DigitRunInDigits(s: string, o: nat, d: string, j: nat)
    requires DigitsAt(s, o, d) && j <= |d|
    ensures DigitRun(s, o + j) == |d| - j
    decreases |d| - j
  {
    if j < |d| {
      assert s[o + j] == d[j];
      DigitRunInDigits(s, o, d, j + 1);
    }
  }

  /** Inside such a `d`, the pattern matches exactly where a multiple of
      three digits follow, except at the start of `d`. */
  lemma CommaAtInDigits(s: string, o: nat, d: string, j: nat)
    requires DigitsAt(s, o, d) && j < |d|
    ensures CommaAt(s, o + j) <==> j > 0 && ThreeGroups(|d| - j)
  {
    DigitRunInDigits(s, o, d, j);
    assert s[o + j] == d[j];
    if j > 0 {
      assert s[o + j - 1] == d[j - 1];
    }
  }

  lemma {:induction false} GroupedFromDigits(s: string, o: nat, d: string, j: nat)
    ensures DigitsAt(s, o, d) && j <= |d| ==>
      GroupedFrom(s, o + j) == DigitsGrouped(d, j) + GroupedFrom(s, o + |d|)
    decreases |d| - j
  {
    if DigitsAt(s, o, d) && j < |d| {
      GroupedFromDigit(s, o, d, j);
      GroupedFromDigits(s, o, d, j + 1);
      DigitsGroupedStep(d, j);
      ChainStep(GroupedFrom(s, o + j), CommaBefore(d, j), d[j], GroupedFrom(s, o + (j + 1)),
                DigitsGrouped(d, j + 1), GroupedFrom(s, o + |d|), DigitsGrouped(d, j));
    }
  }

  /** Combines the three equalities of one step of `GroupedFromDigits` with
      the concatenations kept abstract; it splits a proof goal the solver
      finds costly when stated inline. */
  lemma ChainStep(x: string, c: string, ch: char, y: string, g: string, rest: string, dg: string)
    ensures x == c + [ch] + y && y == g + rest && c + [ch] + g == dg ==> x == dg + rest
  {
    assert c + [ch] + (g + rest) == (c + [ch] + g) + rest;
  }

  /** One digit of the run: the same comma as `DigitsGrouped` places. */
  lemma GroupedFromDigit(s: string, o: nat, d: string, j: nat)
    ensures DigitsAt(s, o, d) && j < |d| ==>
      GroupedFrom(s, o + j) == CommaBefore(d, j) + [d[j]] + GroupedFrom(s, o + (j + 1))
  {
    if DigitsAt(s, o, d) && j < |d| {
      CommaAtInDigits(s, o, d, j);
      GroupedFromStep(s, o + j, j > 0 && ThreeGroups(|d| - j));
      assert s[o + j] == d[j];
    }
  }

  /** Congruence of concatenation under a common prefix, stated apart to
      keep the proof goals of its callers small. */
  lemma SamePrefix(x: string, a: string, b: string)
    ensures a == b ==> x + a == x + b
  {
  }

  lemma GroupedFromStep(s: string, i: nat, comma: bool)
    requires i < |s| && CommaAt(s, i) == comma
    ensures GroupedFrom(s, i) == (if comma then "," else "") + [s[i]] + GroupedFrom(s, i + 1)
  {
  }

  /** `sign + digits + "." + two digits`, the text `toFixed(2)` produces
      for a number below 10^21 in magnitude. */
  predicate FixedShape(sign: string, d: string, f: string)
  {
    (sign == "" || sign == "-") && |d| >= 1 && AllDigits(d) && |f| == 2 && AllDigits(f)
  }

  /** The text ends at `p` with a `.` and two digits. */
  predicate FractionAt(s: string, p: nat)
  {
    p + 3 == |s| && s[p] == '.' && IsDigit(s[p + 1]) && IsDigit(s[p + 2])
  }

  /** A `.` and two digits at the end pass through unchanged. */
  lemma GroupedFraction(s: string, p: nat)
    ensures FractionAt(s, p) ==> GroupedFrom(s, p) == s[p..]
  {
    if FractionAt(s, p) {
      assert DigitRun(s, p + 2) == 1;
      assert DigitRun(s, p + 1) == 2;
      GroupedFromStep(s, p + 2, false);
      GroupedFromStep(s, p + 1, false);
      GroupedFromStep(s, p, false);
      assert s[p..] == [s[p]] + [s[p + 1]] + [s[p + 2]];
    }
  }

  lemma FixedDigitsAt(sign: string, d: string, f: string)
    requires FixedShape(sign, d, f)
    ensures var s := sign + d + "." + f; var p := |sign| + |d|;
      && DigitsAt(s, |sign|, d) && FractionAt(s, p)
      && s[p..] == "." + f
  {
    FixedRun(sign, d, "." + f);
    FixedFraction(sign + d, f);
    assert sign + d + "." + f == (sign + d) + ("." + f);
  }

  /** The digits of `sign + d + rest` sit after the sign, preceded by no
      word character and followed by the first character of `rest`. */
  lemma FixedRun(sign: string, d: string, rest: string)
    requires sign == "" || sign == "-"
    requires AllDigits(d) && |rest| > 0 && !IsDigit(rest[0])
    ensures DigitsAt(sign + d + rest, |sign|, d)
  {
    var s, o := sign + d + rest, |sign|;
    assert s == (sign + d) + rest;
    forall i | 0 <= i < |d|
      ensures s[o + i] == d[i]
    {
      assert s[o + i] == (sign + d)[o + i];
    }
    assert s[o + |d|] == rest[0];
  }

  /** `.` and two digits after any text `a`. */
  lemma FixedFraction(a: string, f: string)
    requires |f| == 2 && AllDigits(f)
    ensures var s := a + ("." + f);
      FractionAt(s, |a|) && s[|a|..] == "." + f
  {
    var s := a + ("." + f);
    assert s[|a|..] == "." + f;
    assert s[|a|] == '.' && s[|a| + 1] == f[0] && s[|a| + 2] == f[1];
  }

  /** A leading minus sign is copied as it is. */
  lemma GroupedMinus(s: string)
    requires |s| > 0 && s[0] == '-'
    ensures GroupedFrom(s, 0) == "-" + GroupedFrom(s, 1)
  {
    assert DigitRun(s, 0) == 0;
    GroupedFromStep(s, 0, false);
  }

  /** Over a whole run of digits, the separator places commas as
      `DigitsGrouped` does. */
  lemma GroupedFromRun(s: string, o: nat, d: string)
    ensures DigitsAt(s, o, d) ==> GroupedFrom(s, o) == DigitsGrouped(d, 0) + GroupedFrom(s, o + |d|)
  {
    if DigitsAt(s, o, d) {
      GroupedFromDigits(s, o, d, 0);
      assert o + 0 == o;
    }
  }

  /** The replacement on `toFixed(2)` text from its first digit on. */
  lemma GroupedFixedDigits(sign: string, d: string, f: string)
    requires FixedShape(sign, d, f)
    ensures GroupedFrom(sign + d + "." + f, |sign|) == DigitsGrouped(d, 0) + ("." + f)
  {
    var s, p := sign + d + "." + f, |sign| + |d|;
    FixedDigitsAt(sign, d, f);
    GroupedFixedAt(s, |sign|, d);
    SamePrefix(DigitsGrouped(d, 0), s[p..], "." + f);
  }

  /** The same for any text with a run of digits followed by exactly a `.`
      and two digits. */
  lemma GroupedFixedAt(s: string, o: nat, d: string)
    requires DigitsAt(s, o, d) && FractionAt(s, o + |d|)
    ensures GroupedFrom(s, o) == DigitsGrouped(d, 0) + s[o + |d|..]
  {
    var p := o + |d|;
    GroupedFromRun(s, o, d);
    GroupedFraction(s, p);
    SamePrefix(DigitsGrouped(d, 0), GroupedFrom(s, p), s[p..]);
  }

  /** On `toFixed(2)` text the separator groups the integer digits by threes
      from the right and leaves the sign and the fraction alone. */
  lemma GroupFixed(sign: string, d: string, f: string)
    requires FixedShape(sign, d, f)
    ensures GroupThousands(sign + d + "." + f) == sign + RefGroup(d) + "." + f
  {
    var s := sign + d + "." + f;
    GroupedFixedDigits(sign, d, f);
    DigitsGroupedIsRefGroup(d);
    if sign == "-" {
      assert s[0] == '-';
      GroupedMinus(s);
    }
  }

  lemma DigitsNoComma(d: string)
    requires AllDigits(d)
    ensures ',' !in d
  {
    assert forall i :: 0 <= i < |d| ==> d[i] != ',';
  }

  /** Deleting the commas of `RefGroup(d)` gives `d` back. */
  lemma {:induction false} RefGroupDigits(d: string)
    requires AllDigits(d)
    ensures Without(RefGroup(d), ',') == d
    decreases |d|
  {
    if |d| <= 3 {
      DigitsNoComma(d);
      WithoutShape(d, ',');
    } else {
      var a, b := d[..|d| - 3], d[|d| - 3..];
      RefGroupDigits(a);
      DigitsNoComma(b);
      WithoutCommaJoin(RefGroup(a), b);
      assert d == a + b;
    }
  }

  lemma WithoutCommaJoin(x: string, b: string)
    requires ',' !in b
    ensures Without(x + "," + b, ',') == Without(x, ',') + b
  {
    WithoutConcat(x + ",", b, ',');
    WithoutConcat(x, ",", ',');
    WithoutComma();
    WithoutShape(b, ',');
  }

  lemma WithoutComma()
    ensures Without(",", ',') == ""
  {
    assert ","[1..] == "";
  }

  /** The groups of `RefGroup(d)`: the first has one to three digits, every
      other exactly three, and together they spell `d`. */
  lemma {:induction false} RefGroupShape(d: string)
    requires |d| >= 1 && AllDigits(d)
    ensures var gs := Split(RefGroup(d), ',');
      && 1 <= |gs[0]| <= 3
      && (forall k :: 1 <= k < |gs| ==> |gs[k]| == 3)
      && (forall k :: 0 <= k < |gs| ==> AllDigits(gs[k]))
      && Without(RefGroup(d), ',') == d
    decreases |d|
  {
    RefGroupDigits(d);
    if |d| <= 3 {
      DigitsNoComma(d);
      SplitSingle(d, ',');
    } else {
      var a, b := d[..|d| - 3], d[|d| - 3..];
      RefGroupShape(a);
      DigitsNoComma(b);
      var ga := Split(RefGroup(a), ',');
      calc {
        Split(RefGroup(d), ',');
        Split(RefGroup(a) + [','] + b, ',');
        { SplitAt(RefGroup(a), b, ','); }
        ga + Split(b, ',');
        { SplitSingle(b, ','); }
        ga + [b];
      }
      assert AllDigits(b);
    }
  }

  /** The text "No data" passes through unchanged and nothing else becomes
      it: the separator cannot make a number look like the missing-data
      marker. */
  lemma GroupThousandsNoData(s: string)
    ensures GroupThousands(s) == "No data" <==> s == "No data"
  {
    GroupThousandsOnlyInserts(s);
    var r := GroupThousands(s);
    if s == "No data" {
      NoDigitsUnchanged(s, 0);
      assert s[0..] == s;
    }
    if r == "No data" {
      assert ',' !in r;
      OutputKeepsCommas(s, 0);
      assert ',' !in s;
      WithoutShape(r, ',');
    }
  }

  lemma {:induction false} NoDigitsUnchanged(s: string, i: nat)
    requires i <= |s|
    requires forall k :: 0 <= k < |s| ==> !IsDigit(s[k])
    ensures GroupedFrom(s, i) == s[i..]
    decreases |s| - i
  {
    if i < |s| {
      NoDigitsUnchanged(s, i + 1);
      assert s[i..] == [s[i]] + s[i + 1..];
    }
  }

  /** Every character of the input, commas included, is in the output. */
  lemma {:induction false} OutputKeepsCommas(s: string, i: nat)
    requires i <= |s|
    ensures forall k :: i <= k < |s| ==> s[k] in GroupedFrom(s, i)
    decreases |s| - i
  {
    if i < |s| {
      OutputKeepsCommas(s, i + 1);
    }
  }
}

=== FILE: reals.dfy ===
/** Arithmetic on the exact reals that stand for JavaScript numbers. */
module Reals {

  /** `Math.abs`. */
  function Abs(x: real): (r: real)
    ensures r >= 0.0 && (r == x || r == -x)
  {
    if x < 0.0 then -x else x
  }
}

=== FILE: text.dfy ===
/** The JavaScript string operations the metric cards rely on, restricted to
    what the source uses: ASCII case mapping, `trim`, `split`/`join` on one
    separator character, and global replacement of a literal pattern. */
module Text {

  predicate IsUpper(c: char) { 'A' <= c <= 'Z' }
  predicate IsLower(c: char) { 'a' <= c <= 'z' }
  predicate IsDigit(c: char) { '0' <= c <= '9' }

  /** `\w` of a JavaScript regular expression without the `u` flag. */
  predicate IsWordChar(c: char) { IsUpper(c) || IsLower(c) || IsDigit(c) || c == '_' }

  predicate AllDigits(s: string) { forall i :: 0 <= i < |s| ==> IsDigit(s[i]) }

  /** The characters `String.prototype.trim` removes: ECMAScript WhiteSpace
      (tab, vertical tab, form feed, space, no-break space, BOM and the Zs
      category) and LineTerminator. */
  predicate IsJsSpace(c: char) {
    var n := c as int;
    || 0x09 <= n <= 0x0D || n == 0x20 || n == 0xA0 || n == 0x1680
    || 0x2000 <= n <= 0x200A || n == 0x2028 || n == 0x2029 || n == 0x202F
    || n == 0x205F || n == 0x3000 || n == 0xFEFF
  }

  function LowerChar(c: char): (d: char)
    ensures !IsUpper(d)
    ensures IsUpper(c) ==> IsLower(d) && d as int == c as int + 32
    ensures !IsUpper(c) ==> d == c
  {
    if IsUpper(c) then (c as int + 32) as char else c
  }

  function UpperChar(c: char): (d: char)
    ensures !IsLower(d)
    ensures IsLower(c) ==> IsUpper(d) && LowerChar(d) == c
    ensures !IsLower(c) ==> d == c
  {
    if IsLower(c) then (c as int - 32) as char else c
  }

  /** `toLowerCase`, on the ASCII letters. */
  function ToLower(s: string): (r: string)
    ensures |r| == |s|
    ensures forall i :: 0 <= i < |r| ==> !IsUpper(r[i])
    ensures forall i :: 0 <= i < |r| && !IsUpper(s[i]) ==> r[i] == s[i]
    ensures forall i :: 0 <= i < |r| && IsUpper(s[i]) ==> r[i] as int == s[i] as int + 32
  {
    seq(|s|, i requires 0 <= i < |s| => LowerChar(s[i]))
  }

  lemma ToLowerConcat(a: string, b: string)
    ensures ToLower(a + b) == ToLower(a) + ToLower(b)
  {
  }

  lemma AppendAssoc<T>(a: seq<T>, b: seq<T>, c: seq<T>)
    ensures (a + b) + c == a + (b + c)
  {
  }

  /** Text without capitals is its own lower case. */
  lemma ToLowerNoUpper(s: string)
    requires forall i :: 0 <= i < |s| ==> !IsUpper(s[i])
    ensures ToLower(s) == s
  {
  }

  /** Lower-casing twice is lower-casing once. */
  lemma ToLowerIdempotent(s: string)
    ensures ToLower(ToLower(s)) == ToLower(s)
  {
  }

  /** `s` with every occurrence of `c` deleted. */
  function Without(s: string, c: char): string
  {
    if |s| == 0 then ""
    else (if s[0] == c then "" else [s[0]]) + Without(s[1..], c)
  }

  /** Deleting a character that does not occur changes nothing; otherwise
      none of it is left. */
  lemma {:induction false} WithoutShape(s: string, c: char)
    ensures c !in Without(s, c)
    ensures c !in s ==> Without(s, c) == s
    decreases |s|
  {
    if |s| > 0 {
      WithoutShape(s[1..], c);
      WithoutStep(s, c);
      if c !in s {
        assert c !in s[1..] by {
          forall i | 0 <= i < |s[1..]| ensures s[1..][i] != c { assert s[1..][i] == s[i + 1]; }
        }
        assert s == [s[0]] + s[1..];
      }
    }
  }

  lemma {:induction false} WithoutConcat(a: string, b: string, c: char)
    ensures Without(a + b, c) == Without(a, c) + Without(b, c)
    decreases |a|
  {
    if |a| == 0 {
      assert a + b == b;
    } else {
      var h := if a[0] == c then "" else [a[0]];
      calc {
        Without(a + b, c);
        { WithoutStep(a + b, c); assert (a + b)[0] == a[0] && (a + b)[1..] == a[1..] + b; }
        h + Without(a[1..] + b, c);
        { WithoutConcat(a[1..], b, c); }
        h + (Without(a[1..], c) + Without(b, c));
        { WithoutStep(a, c); }
        Without(a, c) + Without(b, c);
      }
    }
  }

  lemma WithoutStep(s: string, c: char)
    requires |s| > 0
    ensures Without(s, c) == (if s[0] == c then "" else [s[0]]) + Without(s[1..], c)
  {
  }

  /** `s.split(sep)` for a one-character separator: the pieces between
      separators, always at least one. */
  function Split(s: string, sep: char): (ws: seq<string>)
    ensures |ws| >= 1
  {
    if |s| == 0 then [""]
    else
      var rest := Split(s[1..], sep);
      if s[0] == sep then [""] + rest
      else [[s[0]] + rest[0]] + rest[1..]
  }

  /** No piece of a split holds the separator. */
  lemma {:induction false} SplitPiecesFree(s: string, sep: char)
    ensures forall k :: 0 <= k < |Split(s, sep)| ==> sep !in Split(s, sep)[k]
    decreases |s|
  {
    if |s| > 0 {
      SplitPiecesFree(s[1..], sep);
      var rest := Split(s[1..], sep);
      if s[0] != sep {
        assert sep !in rest[0];
        assert sep !in [s[0]] + rest[0];
      }
    }
  }

  /** `ws.join(sep)`; the empty array joins to the empty string. */
  function Join(ws: seq<string>, sep: char): string
  {
    if |ws| == 0 then ""
    else if |ws| == 1 then ws[0]
    else ws[0] + [sep] + Join(ws[1..], sep)
  }

  lemma JoinCons(w: string, ws: seq<string>, sep: char)
    requires |ws| >= 1
    ensures Join([w] + ws, sep) == w + [sep] + Join(ws, sep)
  {
    assert ([w] + ws)[1..] == ws;
  }

  /** Joining the pieces of a split gives the string back. */
  lemma {:induction false} JoinSplit(s: string, sep: char)
    ensures Join(Split(s, sep), sep) == s
    decreases |s|
  {
    if |s| > 0 {
      var rest := Split(s[1..], sep);
      JoinSplit(s[1..], sep);
      if s[0] == sep {
        JoinCons("", rest, sep);
        assert s == [sep] + s[1..];
      } else if |rest| == 1 {
        assert s == [s[0]] + s[1..];
      } else {
        JoinCons([s[0]] + rest[0], rest[1..], sep);
        assert rest == [rest[0]] + rest[1..];
        JoinCons(rest[0], rest[1..], sep);
        assert s == [s[0]] + s[1..];
      }
    }
  }

  /** A piece free of the separator splits into itself. */
  lemma {:induction false} SplitSingle(w: string, sep: char)
    requires sep !in w
    ensures Split(w, sep) == [w]
    decreases |w|
  {
    if |w| > 0 {
      SplitSingle(w[1..], sep);
      assert w == [w[0]] + w[1..];
    }
  }

  /** Splitting at a separator splits the two sides independently. */
  lemma {:induction false} SplitAt(a: string, b: string, sep: char)
    ensures Split(a + [sep] + b, sep) == Split(a, sep) + Split(b, sep)
    decreases |a|
  {
    var s := a + [sep] + b;
    var sb := Split(b, sep);
    if |a| == 0 {
      assert s[0] == sep && s[1..] == b;
      SplitStep(s, sep);
    } else {
      assert s[0] == a[0] && s[1..] == a[1..] + [sep] + b;
      var ra := Split(a[1..], sep);
      if a[0] == sep {
        calc {
          Split(s, sep);
          { SplitStep(s, sep); }
          [""] + Split(s[1..], sep);
          { SplitAt(a[1..], b, sep); }
          [""] + (ra + sb);
          ([""] + ra) + sb;
          { SplitStep(a, sep); }
          Split(a, sep) + sb;
        }
      } else {
        var rs := Split(s[1..], sep);
        calc {
          Split(s, sep);
          { SplitStep(s, sep); }
          [[a[0]] + rs[0]] + rs[1..];
          { SplitAt(a[1..], b, sep); }
          [[a[0]] + (ra + sb)[0]] + (ra + sb)[1..];
          { ConsFirstPiece([a[0]], ra, sb); }
          ([[a[0]] + ra[0]] + ra[1..]) + sb;
          { SplitStep(a, sep); }
          Split(a, sep) + sb;
        }
      }
    }
  }

  lemma SplitStep(s: string, sep: char)
    requires |s| > 0
    ensures var rest := Split(s[1..], sep);
      Split(s, sep) == if s[0] == sep then [""] + rest else [[s[0]] + rest[0]] + rest[1..]
  {
  }

  lemma ConsFirstPiece(h: string, ra: seq<string>, sb: seq<string>)
    requires |ra| >= 1
    ensures [h + (ra + sb)[0]] + (ra + sb)[1..] == ([h + ra[0]] + ra[1..]) + sb
  {
    assert (ra + sb)[0] == ra[0];
    assert (ra + sb)[1..] == ra[1..] + sb;
  }

  /** Splitting the join of separator-free pieces gives the pieces back. */
  lemma {:induction false} SplitJoin(ws: seq<string>, sep: char)
    requires |ws| >= 1
    requires forall k :: 0 <= k < |ws| ==> sep !in ws[k]
    ensures Split(Join(ws, sep), sep) == ws
    decreases |ws|
  {
    if |ws| == 1 {
      SplitSingle(ws[0], sep);
    } else {
      SplitJoin(ws[1..], sep);
      SplitAt(ws[0], Join(ws[1..], sep), sep);
      SplitSingle(ws[0], sep);
      assert ws == [ws[0]] + ws[1..];
    }
  }

  /** `s.replace(/pat/g, rep)` for a literal pattern: occurrences are found
      left to right and do not overlap. */
  function ReplaceAll(s: string, pat: string, rep: string): string
    requires |pat| > 0
    decreases |s|
  {
    if |s| == 0 then ""
    else if pat <= s then rep + ReplaceAll(s[|pat|..], pat, rep)
    else [s[0]] + ReplaceAll(s[1..], pat, rep)
  }

  /** Replacing a pattern by text that differs from it only in letter case
      is invisible after lower-casing. */
  lemma {:induction false} ReplaceAllCaseOnly(s: string, pat: string, rep: string)
    requires |pat| > 0
    requires ToLower(pat) == ToLower(rep)
    ensures ToLower(ReplaceAll(s, pat, rep)) == ToLower(s)
    decreases |s|
  {
    if |s| > 0 {
      var h := if pat <= s then pat else [s[0]];
      var h' := if pat <= s then rep else [s[0]];
      var tail := s[|h|..];
      assert s == h + tail;
      assert ReplaceAll(s, pat, rep) == h' + ReplaceAll(tail, pat, rep);
      calc {
        ToLower(h' + ReplaceAll(tail, pat, rep));
        { ToLowerConcat(h', ReplaceAll(tail, pat, rep)); }
        ToLower(h') + ToLower(ReplaceAll(tail, pat, rep));
        { ReplaceAllCaseOnly(tail, pat, rep); }
        ToLower(h) + ToLower(tail);
        { ToLowerConcat(h, tail); }
        ToLower(h + tail);
      }
    }
  }

  /** `trimStart`: the longest suffix that does not begin with white space. */
  function TrimStart(s: string): (r: string)
    ensures |r| <= |s| && r == s[|s| - |r|..]
    ensures forall i :: 0 <= i < |s| - |r| ==> IsJsSpace(s[i])
    ensures |r| > 0 ==> !IsJsSpace(r[0])
  {
    if |s| > 0 && IsJsSpace(s[0]) then TrimStart(s[1..]) else s
  }

  /** `trimEnd`: the longest prefix that does not end with white space. */
  function TrimEnd(s: string): (r: string)
    ensures |r| <= |s| && r == s[..|r|]
    ensures forall i :: |r| <= i < |s| ==> IsJsSpace(s[i])
    ensures |r| > 0 ==> !IsJsSpace(r[|r| - 1])
  {
    if |s| > 0 && IsJsSpace(s[|s| - 1]) then TrimEnd(s[..|s| - 1]) else s
  }

  /** `trim`. */
  function Trim(s: string): string
  {
    TrimEnd(TrimStart(s))
  }

  /** Text that neither starts nor ends with white space is its own trim. */
  lemma TrimUnpadded(s: string)
    requires |s| > 0 && !IsJsSpace(s[0]) && !IsJsSpace(s[|s| - 1])
    ensures Trim(s) == s
  {
  }
}

=== FILE: title_format.dfy ===
/** Metric titles (src/components/Analytics.tsx): the metric keys are
    camelCase identifiers such as `gdpGrowth`; a card shows them as spaced,
    sentence-cased words with the acronyms GDP and GNI in capitals. */
module TitleFormat {
  import opened Text

  /** `title.replace(/([A-Z])/g, ' $1')`: a space before every capital. */
  function SpaceBeforeCapitals(t: string): string
  {
    if |t| == 0 then ""
    else (if IsUpper(t[0]) then [' ', t[0]] else [t[0]]) + SpaceBeforeCapitals(t[1..])
  }

  /** The spacing only inserts spaces, and puts one before every capital. */
  lemma {:induction false} SpaceBeforeCapitalsShape(t: string)
    ensures var r := SpaceBeforeCapitals(t);
      && |r| >= |t|
      && Without(r, ' ') == Without(t, ' ')
      && forall i :: 0 <= i < |r| && IsUpper(r[i]) ==> 0 < i && r[i - 1] == ' '
    decreases |t|
  {
    if |t| > 0 {
      SpaceBeforeCapitalsShape(t[1..]);
      var head := if IsUpper(t[0]) then [' ', t[0]] else [t[0]];
      var rest := SpaceBeforeCapitals(t[1..]);
      WithoutConcat(head, rest, ' ');
      WithoutConcat([t[0]], t[1..], ' ');
      assert t == [t[0]] + t[1..];
    }
  }

  /** Deletes each space that directly precedes a capital: the inverse of
      the spacing. */
  function Unspace(r: string): string
  {
    if |r| == 0 then ""
    else if |r| >= 2 && r[0] == ' ' && IsUpper(r[1]) then [r[1]] + Unspace(r[2..])
    else [r[0]] + Unspace(r[1..])
  }

  /** The spacing only inserts a space before each capital: deleting those
      spaces gives back the text, whatever spaces it already held. */
  lemma {:induction false} UnspaceSpaceBeforeCapitals(t: string)
    ensures Unspace(SpaceBeforeCapitals(t)) == t
    decreases |t|
  {
    if |t| > 0 {
      var x := SpaceBeforeCapitals(t[1..]);
      UnspaceSpaceBeforeCapitals(t[1..]);
      assert |x| > 0 ==> !IsUpper(x[0]);
      if IsUpper(t[0]) {
        var r := [' ', t[0]] + x;
        assert r[2..] == x;
        assert Unspace(r) == [t[0]] + Unspace(x);
      } else {
        var r := [t[0]] + x;
        assert r[1..] == x;
        assert Unspace(r) == [t[0]] + Unspace(x);
      }
      assert t == [t[0]] + t[1..];
    }
  }

  /** The description of a metric key: its words spaced out and trimmed. */
  function Description(key: string): string
  {
    Trim(SpaceBeforeCapitals(key))
  }

  /** The case a word takes: the acronyms in capitals, the first word with a
      capital initial, every other word as it is (already lower case). */
  function WordCase(word: string, index: nat): string
  {
    if word == "gdp" then "GDP"
    else if word == "gni" then "GNI"
    else if index == 0 then (if |word| == 0 then "" else [UpperChar(word[0])] + word[1..])
    else word
  }

  /** The `.map((word, index) => ...)` over the words. */
  function CaseWords(ws: seq<string>): (r: seq<string>)
    ensures |r| == |ws|
  {
    seq(|ws|, k requires 0 <= k < |ws| => WordCase(ws[k], k))
  }

  /** The text `formatTitle` splits into words: spaced, trimmed, the two
      acronym replacements applied, then lower-cased. */
  function LoweredTitle(t: string): string
  {
    ToLower(ReplaceAll(ReplaceAll(Trim(SpaceBeforeCapitals(t)), "Gdp", "GDP"), "Gni", "GNI"))
  }

  /** A word of lower-cased text, re-cased by `WordCase`, has no capital
      except the acronyms and the first letter of the first word, and
      differs from the word only in case. */
  lemma WordCaseShape(w: string, k: nat)
    requires forall i :: 0 <= i < |w| ==> !IsUpper(w[i])
    ensures ToLower(WordCase(w, k)) == w
    ensures ' ' !in w ==> ' ' !in WordCase(w, k)
    ensures var v := WordCase(w, k);
      v == "GDP" || v == "GNI" || forall i :: 0 <= i < |v| && IsUpper(v[i]) ==> k == 0 && i == 0
  {
    if w != "gdp" && w != "gni" && k == 0 && |w| > 0 {
      var v := [UpperChar(w[0])] + w[1..];
      assert ToLower(v)[0] == w[0];
      assert forall i :: 1 <= i < |v| ==> ToLower(v)[i] == w[i];
    }
  }

  /** `formatTitle`: spaced, trimmed, lower-cased, split at spaces, each
      word re-cased, joined again. */
  function FormatTitle(t: string): string
  {
    Join(CaseWords(Split(LoweredTitle(t), ' ')), ' ')
  }

  /** The words of a formatted title are the words of the lower-cased text,
      re-cased: each is lower case except GDP, GNI and the capital initial of
      the first word. */
  lemma FormatTitleWords(t: string)
    ensures var ws := Split(FormatTitle(t), ' ');
      && ws == CaseWords(Split(LoweredTitle(t), ' '))
      && forall k, i :: 0 <= k < |ws| && 0 <= i < |ws[k]| && IsUpper(ws[k][i]) ==>
           ws[k] == "GDP" || ws[k] == "GNI" || (k == 0 && i == 0)
  {
    var lowered := LoweredTitle(t);
    var words := Split(lowered, ' ');
    var cased := CaseWords(words);
    forall k | 0 <= k < |words|
      ensures ' ' !in cased[k]
      ensures cased[k] == "GDP" || cased[k] == "GNI"
              || forall i :: 0 <= i < |cased[k]| && IsUpper(cased[k][i]) ==> k == 0 && i == 0
    {
      SplitPiecesLower(lowered, k);
      SplitPiecesFree(lowered, ' ');
      WordCaseShape(words[k], k);
    }
    SplitJoin(cased, ' ');
  }

  /** The pieces of a split of text without capitals have no capitals. */
  lemma SplitPiecesLower(s: string, k: int)
    requires forall i :: 0 <= i < |s| ==> !IsUpper(s[i])
    requires 0 <= k < |Split(s, ' ')|
    ensures forall i :: 0 <= i < |Split(s, ' ')[k]| ==> !IsUpper(Split(s, ' ')[k][i])
  {
    JoinSplit(s, ' ');
    PiecesOfJoin(Split(s, ' '), ' ', k);
  }

  /** Every piece of a join occurs inside it. */
  lemma {:induction false} PiecesOfJoin(ws: seq<string>, sep: char, k: int)
    requires 0 <= k < |ws|
    ensures forall i :: 0 <= i < |ws[k]| ==> ws[k][i] in Join(ws, sep)
    decreases |ws|
  {
    if |ws| > 1 {
      assert Join(ws, sep) == ws[0] + [sep] + Join(ws[1..], sep);
      if k > 0 {
        PiecesOfJoin(ws[1..], sep, k - 1);
      }
    }
  }

  /** `formatTitle` changes only letter case: lower-casing its output gives
      the spaced, trimmed title lower-cased. */
  lemma FormatTitleCaseOnly(t: string)
    ensures ToLower(FormatTitle(t)) == ToLower(Trim(SpaceBeforeCapitals(t)))
  {
    var trimmed := Trim(SpaceBeforeCapitals(t));
    var lowered := LoweredTitle(t);
    AcronymReplacementsVanish(trimmed);
    var words := Split(lowered, ' ');
    var cased := CaseWords(words);
    forall k | 0 <= k < |words|
      ensures ToLower(cased[k]) == words[k]
    {
      SplitPiecesLower(lowered, k);
      WordCaseShape(words[k], k);
    }
    JoinToLower(cased, words, ' ');
    JoinSplit(lowered, ' ');
    ToLowerIdempotent(trimmed);
  }

  /** Joining commutes with lower-casing the pieces. */
  lemma {:induction false} JoinToLower(vs: seq<string>, ws: seq<string>, sep: char)
    requires |vs| == |ws|
    requires !IsUpper(sep)
    requires forall k :: 0 <= k < |vs| ==> ToLower(vs[k]) == ws[k]
    ensures ToLower(Join(vs, sep)) == Join(ws, sep)
    decreases |vs|
  {
    if |vs| > 1 {
      JoinToLower(vs[1..], ws[1..], sep);
      ToLowerConcat(vs[0] + [sep], Join(vs[1..], sep));
      ToLowerConcat(vs[0], [sep]);
    }
  }

  /** The `.replace(/Gdp/g, 'GDP').replace(/Gni/g, 'GNI')` calls have no
      effect on the result: the `.toLowerCase()` that follows undoes them. */
  lemma AcronymReplacementsVanish(s: string)
    ensures ToLower(ReplaceAll(ReplaceAll(s, "Gdp", "GDP"), "Gni", "GNI")) == ToLower(s)
  {
    assert ToLower("Gdp") == ToLower("GDP");
    assert ToLower("Gni") == ToLower("GNI");
    ReplaceAllCaseOnly(ReplaceAll(s, "Gdp", "GDP"), "Gni", "GNI");
    ReplaceAllCaseOnly(s, "Gdp", "GDP");
  }
  /** Spacing distributes over concatenation. */
  lemma {:induction false} SpaceBeforeCapitalsConcat(a: string, b: string)
    ensures SpaceBeforeCapitals(a + b) == SpaceBeforeCapitals(a) + SpaceBeforeCapitals(b)
    decreases |a|
  {
    if |a| == 0 {
      assert a + b == b;
    } else {
      assert (a + b)[1..] == a[1..] + b;
      SpaceBeforeCapitalsConcat(a[1..], b);
    }
  }

  /** Text without capitals is left alone by the spacing. */
  lemma {:induction false} SpaceBeforeCapitalsNoCapitals(w: string)
    requires forall i :: 0 <= i < |w| ==> !IsUpper(w[i])
    ensures SpaceBeforeCapitals(w) == w
    decreases |w|
  {
    if |w| > 0 {
      SpaceBeforeCapitalsNoCapitals(w[1..]);
      assert w == [w[0]] + w[1..];
    }
  }

  /** The lower-cased text of a title, with the acronym replacements gone. */
  lemma LoweredTitleIs(t: string)
    ensures LoweredTitle(t) == ToLower(Trim(SpaceBeforeCapitals(t)))
  {
    AcronymReplacementsVanish(Trim(SpaceBeforeCapitals(t)));
  }

  // ---------------------------------------------------------------------
  // Camel-case keys

  /** A word of a camel-case key as written in lower case: an ASCII
      lower-case letter followed by lower-case letters and digits. */
  predicate LowerWord(w: string)
  {
    |w| > 0 && IsLower(w[0]) && forall i :: 0 <= i < |w| ==> IsLower(w[i]) || IsDigit(w[i])
  }

  function Capitalize(w: string): string
  {
    if |w| == 0 then "" else [UpperChar(w[0])] + w[1..]
  }

  /** The words after the first, each capitalised and run together. */
  function CamelTail(vs: seq<string>): string
  {
    if |vs| == 0 then "" else Capitalize(vs[0]) + CamelTail(vs[1..])
  }

  /** The camel-case key made of the words `ws`: `["gdp", "growth"]` gives
      `gdpGrowth`. */
  function CamelCase(ws: seq<string>): string
    requires |ws| >= 1
  {
    ws[0] + CamelTail(ws[1..])
  }

  /** The words after the first, each capitalised and preceded by a space. */
  function SpacedTail(vs: seq<string>): string
  {
    if |vs| == 0 then "" else [' '] + Capitalize(vs[0]) + SpacedTail(vs[1..])
  }

  /** The words after the first, each preceded by a space. */
  function LowerTail(vs: seq<string>): string
  {
    if |vs| == 0 then "" else [' '] + vs[0] + LowerTail(vs[1..])
  }

  /** A capitalised word gets one space in front of it. */
  lemma SpacedCapitalize(v: string)
    requires LowerWord(v)
    ensures SpaceBeforeCapitals(Capitalize(v)) == [' '] + Capitalize(v)
  {
    var u, w := UpperChar(v[0]), v[1..];
    assert Capitalize(v) == [u] + w;
    assert forall i :: 0 <= i < |w| ==> !IsUpper(w[i]) by {
      assert forall i :: 0 <= i < |w| ==> w[i] == v[i + 1];
    }
    calc {
      SpaceBeforeCapitals([u] + w);
      { SpaceBeforeCapitalsConcat([u], w); }
      SpaceBeforeCapitals([u]) + SpaceBeforeCapitals(w);
      { SpaceBeforeUpper(u); SpaceBeforeCapitalsNoCapitals(w); }
      ([' '] + [u]) + w;
      { AppendAssoc([' '], [u], w); }
      [' '] + ([u] + w);
    }
  }

  /** A single capital gets its space. */
  lemma SpaceBeforeUpper(u: char)
    requires IsUpper(u)
    ensures SpaceBeforeCapitals([u]) == [' '] + [u]
  {
    assert [u][1..] == [];
  }

  lemma {:induction false} CamelTailSpaced(vs: seq<string>)
    requires forall k :: 0 <= k < |vs| ==> LowerWord(vs[k])
    ensures SpaceBeforeCapitals(CamelTail(vs)) == SpacedTail(vs)
    decreases |vs|
  {
    if |vs| > 0 {
      calc {
        SpaceBeforeCapitals(CamelTail(vs));
        SpaceBeforeCapitals(Capitalize(vs[0]) + CamelTail(vs[1..]));
        { SpaceBeforeCapitalsConcat(Capitalize(vs[0]), CamelTail(vs[1..])); }
        SpaceBeforeCapitals(Capitalize(vs[0])) + SpaceBeforeCapitals(CamelTail(vs[1..]));
        { SpacedCapitalize(vs[0]); CamelTailSpaced(vs[1..]); }
        [' '] + Capitalize(vs[0]) + SpacedTail(vs[1..]);
      }
    }
  }

  lemma {:induction false} SpacedTailLower(vs: seq<string>)
    requires forall k :: 0 <= k < |vs| ==> LowerWord(vs[k])
    ensures ToLower(SpacedTail(vs)) == LowerTail(vs)
    decreases |vs|
  {
    if |vs| > 0 {
      var v := vs[0];
      var u := UpperChar(v[0]);
      SpacedTailLower(vs[1..]);
      ToLowerConcat([' '] + Capitalize(v), SpacedTail(vs[1..]));
      ToLowerConcat([' '], Capitalize(v));
      ToLowerConcat([u], v[1..]);
      assert ToLower([u]) == [v[0]];
      assert ToLower(v[1..]) == v[1..];
      assert v == [v[0]] + v[1..];
    }
  }

  lemma {:induction false} SpacedTailEnd(vs: seq<string>)
    requires forall k :: 0 <= k < |vs| ==> LowerWord(vs[k])
    ensures |vs| > 0 ==> |SpacedTail(vs)| > 0 && IsWordChar(SpacedTail(vs)[|SpacedTail(vs)| - 1])
    decreases |vs|
  {
    if |vs| > 0 {
      SpacedTailEnd(vs[1..]);
    }
  }

  lemma {:induction false} JoinAsLowerTail(ws: seq<string>)
    requires |ws| >= 1
    ensures Join(ws, ' ') == ws[0] + LowerTail(ws[1..])
    decreases |ws|
  {
    if |ws| > 1 {
      JoinAsLowerTail(ws[1..]);
      assert ws[1..][1..] == ws[2..];
    }
  }

  /** A camel-case key made of lower-case words is formatted as its words,
      spaced and re-cased: `formatTitle` undoes the camel case. */
  lemma FormatTitleCamelCase(ws: seq<string>)
    requires |ws| >= 1
    requires forall k :: 0 <= k < |ws| ==> LowerWord(ws[k])
    ensures FormatTitle(CamelCase(ws)) == Join(CaseWords(ws), ' ')
  {
    LoweredCamelCase(ws);
    forall k | 0 <= k < |ws| ensures ' ' !in ws[k] {
      assert forall i :: 0 <= i < |ws[k]| ==> ws[k][i] != ' ';
    }
    SplitJoin(ws, ' ');
  }

  /** The spaced text of a camel-case key: its first word, then the others
      capitalised, each after a space. */
  lemma SpacedCamelCase(ws: seq<string>)
    requires |ws| >= 1
    requires forall k :: 0 <= k < |ws| ==> LowerWord(ws[k])
    ensures SpaceBeforeCapitals(CamelCase(ws)) == ws[0] + SpacedTail(ws[1..])
  {
    SpaceBeforeCapitalsConcat(ws[0], CamelTail(ws[1..]));
    SpaceBeforeCapitalsNoCapitals(ws[0]);
    CamelTailSpaced(ws[1..]);
  }

  /** That spaced text needs no trimming. */
  lemma SpacedCamelCaseTrimmed(ws: seq<string>)
    requires |ws| >= 1
    requires forall k :: 0 <= k < |ws| ==> LowerWord(ws[k])
    ensures Trim(ws[0] + SpacedTail(ws[1..])) == ws[0] + SpacedTail(ws[1..])
  {
    var spaced := ws[0] + SpacedTail(ws[1..]);
    SpacedTailEnd(ws[1..]);
    assert spaced[0] == ws[0][0];
    assert IsWordChar(spaced[|spaced| - 1]);
    TrimUnpadded(spaced);
  }

  /** That spaced text lower-cases to the words joined by spaces. */
  lemma SpacedCamelCaseLower(ws: seq<string>)
    requires |ws| >= 1
    requires forall k :: 0 <= k < |ws| ==> LowerWord(ws[k])
    ensures ToLower(ws[0] + SpacedTail(ws[1..])) == Join(ws, ' ')
  {
    calc {
      ToLower(ws[0] + SpacedTail(ws[1..]));
      { ToLowerConcat(ws[0], SpacedTail(ws[1..])); }
      ToLower(ws[0]) + ToLower(SpacedTail(ws[1..]));
      { assert LowerWord(ws[0]);
        ToLowerNoUpper(ws[0]);
        SpacedTailLower(ws[1..]); }
      ws[0] + LowerTail(ws[1..]);
      { JoinAsLowerTail(ws); }
      Join(ws, ' ');
    }
  }

  /** The lower-cased text of a camel-case key is its words joined by spaces. */
  lemma LoweredCamelCase(ws: seq<string>)
    requires |ws| >= 1
    requires forall k :: 0 <= k < |ws| ==> LowerWord(ws[k])
    ensures LoweredTitle(CamelCase(ws)) == Join(ws, ' ')
  {
    LoweredTitleIs(CamelCase(ws));
    SpacedCamelCase(ws);
    SpacedCamelCaseTrimmed(ws);
    SpacedCamelCaseLower(ws);
  }

  lemma GdpGrowthWords()
    ensures LowerWord("gdp") && LowerWord("growth")
    ensures CamelCase(["gdp", "growth"]) == "gdpGrowth"
    ensures Join(CaseWords(["gdp", "growth"]), ' ') == "GDP growth"
  {
    assert Capitalize("growth") == "Growth";
    assert CaseWords(["gdp", "growth"]) == ["GDP", "growth"];
  }

  /** `formatTitle("gdpGrowth")` is "GDP growth". */
  lemma FormatTitleGdpGrowth()
    ensures FormatTitle("gdpGrowth") == "GDP growth"
  {
    GdpGrowthWords();
    FormatTitleCamelCase(["gdp", "growth"]);
  }

  lemma GniPerCapitaCamel()
    ensures CamelCase(["gni", "per", "capita"]) == "gniPerCapita"
  {
    var ws := ["gni", "per", "capita"];
    assert ws[1..] == ["per", "capita"];
    assert Capitalize("per") == "Per";
    assert Capitalize("capita") == "Capita";
    assert CamelTail(["capita"]) == "Capita";
  }

  lemma GniPerCapitaWords()
    ensures LowerWord("gni") && LowerWord("per") && LowerWord("capita")
    ensures CamelCase(["gni", "per", "capita"]) == "gniPerCapita"
    ensures Join(CaseWords(["gni", "per", "capita"]), ' ') == "GNI per capita"
  {
    GniPerCapitaCamel();
    assert CaseWords(["gni", "per", "capita"]) == ["GNI", "per", "capita"];
  }

  /** `formatTitle("gniPerCapita")` is "GNI per capita". */
  lemma FormatTitleGniPerCapita()
    ensures FormatTitle("gniPerCapita") == "GNI per capita"
  {
    GniPerCapitaWords();
    FormatTitleCamelCase(["gni", "per", "capita"]);
  }
}

=== FILE: wrappers.dfy ===
/** Optional values, used where the source works with `null`, `undefined`
    or a missing `switch` case. */
module Wrappers {

  datatype Option<+T> = None | Some(value: T) {

    /** Returns the value held in Some, or `default` for None (the `||`
        fallback of the source). */
    function GetOr(default: T): T {
      match this
      case Some(v) => v
      case None => default
    }
  }
}
